=== FILE: README.md ===
# algorun, modelled in Dafny

algorun installs and drives an Algorand node on the local machine. `create`
resolves a release name against the GitHub release listing, downloads and
unpacks the release tarball, stops the node, wipes the data directory,
installs the binaries, seeds the data directory, starts the node, discovers the ports of the
node and of the key-management daemon (kmd), patches both configuration
files, waits for the node to advance past its starting round, and finally
starts a fast catchup. `update` refreshes the binaries between a stop and a
start; `status` asks the node for its status.

This project models the decisions inside that plumbing as pure functions and
proves what they do. Everything the program observes from outside is an
input: the release listing, whether the tarball request got a response, the result of the `kmd-*` glob, file contents,
the JSON value of each configuration text, whether the node client could be
built, the status replies, and the catchpoint label (`Orchestrator.World`). A
command is modelled as the run it produces: the ordered list of externally
visible actions (directories made, listing and download calls, extraction,
control-binary invocations, copies, removals, configuration writes, status
calls) and whether it ends normally or in a panic / fatal log
(`Orchestrator.Run`).

Modules:

- `Outcomes`: `Option`, `Result` and the ways a run can fail.
- `Text`: Go's `strings.Split` (with its inverse `Join`), the last field of a
  split, `strings.Contains`, and `strings.TrimSpace` with Go's `unicode.IsSpace`
  set.
- `Releases`: the first-match search of `getVersion`, the hand-written
  leftmost-first matcher for `\d+\.\d+\.\d+`, the channel taken by `-(.*)`,
  and the tarball name and download URL.
- `Endpoints`: the port read from `algod.net` / `kmd.net`.
- `Configs`: untyped JSON objects as `map<string, Json>`, decoding into a nil
  map, and the two configuration patches.
- `SyncMonitor`: the wait for the node's round to advance.
- `Orchestrator`: the installation layout, `execCmd` / `goalCmd` and the
  start/stop/status sequences, `downloadAndExtractRelease`, `createCmd`, and
  the dispatch in `main`.

Behaviour of the program worth knowing:

- The configuration files are patched and written before the wait for the
  node to advance, not after it.
- Only `create`, `update` and `status` are dispatched; `catchup`, `start`,
  `stop`, `goal` and `dashboard` parse but end in the "Unrecognized command"
  panic (`Orchestrator.OtherCommandsAreUnrecognized`).
- `--base-dir` and `--force-download` are parsed but never read, so the
  installation always lives under `./test-algorun-dir` and a download is
  never forced. The download library may skip it instead: by default it
  leaves a complete tarball already in the downloads directory untouched
  and resumes a partial one.
- A tarball request that gets no HTTP response at all (the store cannot be
  resolved or reached) panics when the progress bar reads the response
  length, so `update` then dies before it stops the node
  (`Orchestrator.UpdateWithoutResponse`).
- Nothing is written atomically and nothing is rolled back. A failure the
  program checks is a panic or fatal log that ends the process where it
  stands; the errors listed as ignored under "## Left out" are dropped and
  the run goes on.
- A configuration text that is not a JSON object leaves Go's map nil, and the
  first assignment into it panics; this is the `NilConfigMap` failure.
- The channel expression `-(.*)` stops at the first newline, since `.` does
  not match `\n`; a tag without `-` makes the slice `[1:]` of the empty match
  panic (`NoChannel`).
- Port discovery never fails on the file's contents: a net file without ':'
  yields its whole trimmed text as the port (`Endpoints.PortOfWithoutColon`).
- `execCmd` splits the command line on single spaces, so a space anywhere in
  the installation root changes which program is started
  (`Orchestrator.SpaceInRootSplitsProgram`).

## Model

| member | source | states |
|---|---|---|
| `Text.Split` | algorun.go:244 | `strings.Split` on a one-character separator yields at least one field, no field holds the separator, and joining the fields with the separator gives the input back |
| `Text.SplitJoin` | algorun.go:75 | splitting the separator-join of non-empty, separator-free field lists gives the fields back (split and join are inverse) |
| `Text.SplitAtSeparator` | algorun.go:244 | the fields of `a + sep + b` are the fields of `a` followed by the fields of `b` |
| `Text.SplitFirstField` | algorun.go:75 | a separator-free prefix ending at the first separator is the first field |
| `Text.LastField` | algorun.go:244-245 | the last field of a split is separator-free, is a suffix of the input, and is either all of it or preceded by a separator |
| `Text.LastFieldAfterSeparator` | algorun.go:244-245 | whatever precedes the last separator, the last field is exactly the separator-free text after it |
| `Text.TrimSpace` | algorun.go:245 | the result is a contiguous piece of the input with only white space around it, and it neither starts nor ends with white space |
| `Text.TrimSpaceOfPadded` | algorun.go:248 | trimming white-space padding off a text that has no white space at its ends returns that text |
| `Text.Contains` | algorun.go:181 | `strings.Contains`: the pattern occurs at some index of the text; stated by `GetVersion` |
| `Releases.GetVersion` | algorun.go:179-186 | the result is the first tag in listing order that contains the release name (no earlier tag contains it); the "no match found" error occurs exactly when no tag contains it |
| `Releases.GetVersionIgnoresLaterTags` | algorun.go:179-184 | once a tag matches, tags listed after the listing seen so far cannot change the result |
| `Releases.MatchEndSound` | algorun.go:195 | a match found at an index spells `\d+\.\d+\.\d+` and its last digit run is not followed by a digit |
| `Releases.MatchEndExact` | algorun.go:195 | every match at an index whose last run is maximal is the one the matcher finds there |
| `Releases.MatchEndComplete` | algorun.go:195 | if any match starts at an index, the matcher finds one there |
| `Releases.LeftmostMatch` | algorun.go:198 | the search returns the first index at or after its start where the matcher succeeds, and reports none only when it succeeds nowhere |
| `Releases.FindVersionIsLeftmostMatch` | algorun.go:195-198 | `FindString` gives "" exactly when no substring matches; otherwise it gives the leftmost-first match with a maximal last run |
| `Releases.LeftmostVersionUnique` | algorun.go:198 | the leftmost-first match is unique |
| `Releases.VersionShapeChars` | algorun.go:195 | a version holds only digits and dots and starts with a digit |
| `Releases.FindVersionOfTag` | algorun.go:198 | in a tag of the form prefix-without-digits, version, rest-not-starting-with-a-digit, the version found is exactly that version |
| `Releases.ChannelOf` | algorun.go:196-200 | the channel fails exactly when the tag has no '-', and otherwise is the text after the first '-' up to the first newline |
| `Releases.ChannelOfTag` | algorun.go:200 | for `prefix-channel` with no '-' in the prefix and no newline in the channel, the channel is recovered exactly |
| `Releases.DecodeTag` | algorun.go:195-200 | decoding fails exactly when the tag has no '-'; otherwise it keeps the tag, its leftmost version and its channel |
| `Releases.DecodeTagRoundTrip` | algorun.go:195-200 | a tag built as prefix + version + "-" + channel decodes back to that version and channel |
| `Releases.DecodeStableTag` | algorun.go:195-200 | "v3.16.2-stable" decodes to version "3.16.2" on channel "stable" |
| `Releases.ReleaseUrlNamesTarball` | algorun.go:202-207 | the download URL's last path segment is the tarball name, the same name later opened in the downloads directory |
| `Endpoints.PortOfShape` | algorun.go:244-248 | the port has no ':' and no white space at either end, and is the last ':'-field of the file with only white space trimmed around it |
| `Endpoints.PortOfAddress` | algorun.go:241-248 | for `host:port` with white-space padding around the port, the port is recovered, whatever ':'s the host holds |
| `Endpoints.PortOfUnpadded` | algorun.go:244-248 | a port with no ':' and no white space at its ends is read back from `host:port` |
| `Endpoints.PortOfWithoutColon` | algorun.go:244-248 | a file without ':' yields its whole text, trimmed, as the port; there is no discovery error |
| `Endpoints.PortOfNetFile` | algorun.go:242-248 | "127.0.0.1:8080\n" yields "8080" |
| `Configs.DecodeObject` | algorun.go:253-260 | `json.Unmarshal` into a nil map yields a map exactly when the text decodes to a JSON object, and then holds its fields |
| `Configs.PatchKmd` | algorun.go:262-263 | a nil map stays nil (the assignment panics); otherwise exactly `allowed_origins` and `address` are set, to `["*"]` and `0.0.0.0:<kmd port>`, and every other key keeps its value |
| `Configs.PatchAlgod` | algorun.go:265 | a nil map stays nil; otherwise exactly `EndpointAddress` is set to `0.0.0.0:<node port>` and every other key keeps its value |
| `Configs.PatchKmdIdempotent` | algorun.go:262-263 | patching the written kmd configuration again changes nothing |
| `Configs.PatchAlgodIdempotent` | algorun.go:265 | patching the written node configuration again changes nothing |
| `Configs.BindAllKeepsPort` | algorun.go:263-265 | reading the port back from a written bind-all address gives the discovered port |
| `SyncMonitor.Wait` | algorun.go:300-317 | the wait succeeds at the first poll whose round exceeds the starting round, fails at the first poll error, and times out exactly when every poll before the timer reports a round no greater than the start |
| `SyncMonitor.WaitDecidedIsStable` | algorun.go:303-317 | a decided wait is the same however many more ticks the timer would have allowed |
| `SyncMonitor.StalePollsDelay` | algorun.go:313-315 | polls reporting rounds no greater than the start only delay the outcome and never change its kind |
| `SyncMonitor.AdvancesOnThirdPoll` | algorun.go:307-315 | rounds N, N, N+1 against start N succeed at the third poll |
| `SyncMonitor.NeverAdvancingTimesOut` | algorun.go:305-306 | a node stuck at its starting round times out |
| `Orchestrator.GoalArgv` | algorun.go:121-123 | with space-free paths, `goalCmd` starts the goal binary with `-d <DataDir>` followed by the space-separated words of its arguments |
| `Orchestrator.GoalArgvOfWords` | algorun.go:121-123 | arguments made of space-free words reach the goal binary word for word |
| `Orchestrator.PathsWithoutSpaces` | algorun.go:364-369 | a root without spaces gives a goal path and data directory without spaces |
| `Orchestrator.SpaceInRootSplitsProgram` | algorun.go:74-76 | with a space in the root the program started is the part of the root before the space, not the goal binary |
| `Orchestrator.NodeStopArgv` | algorun.go:130-133 | `nodeStop` runs `node stop` and then `kmd stop` |
| `Orchestrator.NodeStartArgv` | algorun.go:125-128 | `nodeStart` runs `node start` and then `kmd start -t 0` |
| `Orchestrator.NodeStatusArgv` | algorun.go:135-137 | `nodeStatus` runs `node status` |
| `Orchestrator.ReadAndPatch` | algorun.go:235-265 | patching succeeds only when the glob found a kmd directory, and it uses the first one |
| `Orchestrator.ReadAndPatchReadOrder` | algorun.go:241-257 | the files are read in the order kmd.net, algod.net, config.json, kmd_config.json.example, and the first one missing ends the run with a read failure naming it |
| `Orchestrator.ReadAndPatchNilMaps` | algorun.go:253-265 | with all four files read, a kmd text that is not a JSON object ends the run on the kmd file; otherwise a node text that is not a JSON object ends it on config.json; otherwise the patch succeeds and every key it does not set keeps its decoded value |
| `Orchestrator.PatchedConfigs` | algorun.go:241-265 | a successful patch read both net files, and set `EndpointAddress` to the node port, `address` to the kmd port (both bound to all interfaces) and `allowed_origins` to every origin |
| `Orchestrator.FetchShape` | algorun.go:189-208 | fetching lists releases first and changes nothing installed; it stops after the listing, stops after a download that got no response, or downloads and then extracts |
| `Orchestrator.DownloadsTarballOfTag` | algorun.go:189-208 | the first matching tag is downloaded from its channel under the tarball name built from its channel, platform and version; if the request got a response, that same file is extracted into the staging directory, and otherwise the run ends in the nil-response panic |
| `Orchestrator.TagWithoutChannelAborts` | algorun.go:200 | a resolved tag without '-' ends the run right after the listing |
| `Orchestrator.EmptyReleaseIsStable` | algorun.go:352-356 | an empty release name behaves as "stable" for both `create` and `update` |
| `Orchestrator.DownloadComesFirst` | algorun.go:371-382 | `create` and `update` make the four directories, list releases, and download and extract before anything changes the installation |
| `Orchestrator.ResolveFailureChangesNothing` | algorun.go:139-209 | a failure to list, resolve, decode or download the release ends the run before anything is changed |
| `Orchestrator.UpdateWithoutResponse` | algorun.go:139-144 | with the release resolved but no response to the tarball request, `update` ends in the panic right after the download request, before stopping the node |
| `Orchestrator.UpdateSequence` | algorun.go:386-389 | after fetching, `update` runs exactly: node stop, kmd stop, copy goal, kmd and algod from `TempDir/bin` to `BinDir`, node start, kmd start -t 0 |
| `Orchestrator.UpdateTail` | algorun.go:211-219 | `copyBinariesFromTmp` copies goal, kmd and algod, in that order, from `TempDir/bin/<x>` to `BinDir/<x>`, between the stop and start sequences |
| `Orchestrator.StatusRunsNodeStatus` | algorun.go:390-391 | `status` makes the directories and runs `node status` only |
| `Orchestrator.OtherCommandsAreUnrecognized` | algorun.go:384-394 | every other command ends in the "Unrecognized command" panic after only making the directories |
| `Orchestrator.CreateStopsBeforeWiping` | algorun.go:221-223 | `create` stops both daemons before it removes the data directory, and removes nothing else |
| `Orchestrator.ConfigureNeverRemoves` | algorun.go:235-320 | nothing after the node starts removes anything |
| `Orchestrator.CreateCompleted` | algorun.go:221-320 | a completed `create` wrote the patched node config and then the patched kmd config with the discovered ports, saw the node advance, and ended by starting a catchup to the fetched label |
| `Orchestrator.ConfigureCompleted` | algorun.go:235-320 | once the node is up, a completed run writes the node config and then the kmd config with the discovered ports, makes a first status call, and ends by starting a catchup to the fetched label |
| `Orchestrator.MonitorCompleted` | algorun.go:282-320 | a completed wait began with a status call, saw a round past the start, fetched a catchpoint, and ended with `node catchup <label>` |
| `Orchestrator.MonitorTimesOut` | algorun.go:282-317 | a node that never advances makes the wait issue one status call per tick and end in the timeout panic |
| `Orchestrator.MonitorPollFails` | algorun.go:307-310 | a failed status poll ends the wait at once: one status call per poll up to and including the failed one, then the panic |
| `Orchestrator.MonitorEarlyExits` | algorun.go:282-317 | an unreadable token file, a client that cannot be built and a failed first status call each end the run before any poll; a label that cannot be fetched (the request in `catchup`, line 106) ends a successful wait without a catchup |
| `Orchestrator.CreatePollFails` | algorun.go:307-310 | a failed status poll makes `create` fail without fetching a catchpoint |
| `Orchestrator.CreateTimesOut` | algorun.go:292-319 | a node that never advances makes `create` fail without fetching a catchpoint |
| `Orchestrator.Main` | algorun.go:352-394 | `main` after parsing: make the four directories, fetch the release for `create` and `update`, then dispatch; stated by `DownloadComesFirst`, `EmptyReleaseIsStable`, `ResolveFailureChangesNothing`, `UpdateSequence` and `StatusRunsNodeStatus` |
| `Orchestrator.Dispatch` | algorun.go:384-394 | the command switch: `create`, `update` and `status` run their sequences and every other command panics; stated by `UpdateRun` and `OtherCommandsAreUnrecognized` |
| `Orchestrator.CreateCmd` | algorun.go:221-320 | `createCmd` as the preparation followed by configuration and monitoring; stated by `CreateStopsBeforeWiping`, `CreateCompleted` and `CreateTimesOut` |
| `Orchestrator.Configure` | algorun.go:235-320 | once the node runs: read and patch, write config.json and then kmd_config.json, then monitor; stated by `ConfigureCompleted` and `ConfigureNeverRemoves` |
| `Orchestrator.Setup` | algorun.go:371-378 | the four directories made before anything else; stated by `DownloadComesFirst` |
| `Orchestrator.Prepare` | algorun.go:222-234 | stop, wipe the data directory, copy the binaries and seeds, start; stated by `CreateStopsBeforeWiping` |
| `Orchestrator.DownloadAndExtract` | algorun.go:189-209 | resolve, name, download and extract the release, with its failure exits; stated by `FetchShape`, `DownloadsTarballOfTag` and `TagWithoutChannelAborts` |
| `Orchestrator.Monitor` | algorun.go:282-317 | the client, the starting round and the polling loop; stated by `MonitorCompleted`, `MonitorTimesOut`, `MonitorPollFails` and `MonitorEarlyExits` |
| `Orchestrator.CatchupStep` | algorun.go:106-119 | fetch the catchpoint label and start a fast catchup to it; stated by `MonitorCompleted` |
| `Orchestrator.ExecArgv` | algorun.go:74-76 | the argument vector `execCmd` starts: the command line split on single spaces; stated by `GoalArgv` and `SpaceInRootSplitsProgram` |
| `Orchestrator.GoalCommand` | algorun.go:121-123 | the command line `goalCmd` builds; stated by `GoalArgv` and `GoalArgvOfWords` |
| `Orchestrator.NodeStart` | algorun.go:125-128 | the two invocations of `nodeStart`; stated by `NodeStartArgv` |
| `Orchestrator.NodeStop` | algorun.go:130-133 | the two invocations of `nodeStop`; stated by `NodeStopArgv` |
| `Orchestrator.NodeStatus` | algorun.go:135-137 | the invocation of `nodeStatus`; stated by `NodeStatusArgv` |
| `Orchestrator.CopyBinaries` | algorun.go:211-219 | the three copies of `copyBinariesFromTmp`; stated by `UpdateTail` |
| `Orchestrator.SeedDataDir` | algorun.go:228-232 | the genesis file and example config copied into the data directory; part of the ten preparation actions `CreateCompleted` counts |
| `Orchestrator.PathsFor` | algorun.go:358-369 | the installation layout under the root; stated by `PathsWithoutSpaces` and `SpaceInRootSplitsProgram` |
| `Orchestrator.ReleaseName` | algorun.go:352-356 | the release name with "stable" as default; stated by `EmptyReleaseIsStable` |
| `Endpoints.PortOf` | algorun.go:244-248 | the trimmed last ':'-field of a net file; stated by `PortOfShape`, `PortOfAddress` and `PortOfWithoutColon` |
| `Releases.FindVersion` | algorun.go:198 | `FindString` of the version expression; stated by `FindVersionIsLeftmostMatch` |
| `Releases.TarballName` | algorun.go:202 | `node_<channel>_<os>-<arch>_<version>.tar.gz`; stated by `ReleaseUrlNamesTarball` |
| `Releases.ReleaseUrl` | algorun.go:203 | the S3 URL under the channel's directory; stated by `ReleaseUrlNamesTarball` |
| `Configs.BindAll` | algorun.go:263-265 | the `0.0.0.0:<port>` listen address; stated by `BindAllKeepsPort` |

## Left out

- HTTP: the GitHub listing, the S3 download with its progress bar and ticker, and the catchpoint fetch. The listing, the label, and whether the tarball request got any response are inputs; the download itself is an action whose transfer errors are ignored, as in the source. Skipping or resuming a cached tarball is not modelled.
- Tarball extraction and the copy library. Only the source and destination paths are modelled.
- Process spawning, output streaming and exit codes. `goalCmd` ignores `execCmd`'s error, so every invocation is an action that cannot fail.
- Errors the source ignores: `execCmd`'s error in `goalCmd`, `os.MkdirAll`, `os.RemoveAll`, `copy.Copy`, the error `downloadFile` returns once a response arrived, `os.Open` of the tarball, and `extract.Gz`. The run continues as the source does; the one download failure that does stop it, a request with no response, is modelled as `NoResponse`.
- Write failures of `bytesToFile` (a fatal log). Writes are assumed to succeed; read failures of `fileToString` are modelled as `ReadFailed`.
- JSON byte encoding: `json.Unmarshal` is an input map from text to value, and `MarshalIndent` output and key order are not modelled. The marshal errors cannot occur for these maps. "Every other key keeps its value" (`Configs.PatchKmd`, `Configs.PatchAlgod`, `Orchestrator.ReadAndPatchNilMaps`) holds for the decoded values, not for the file text: Go decodes every number to a float64 and re-encodes it, so `1.0` is written as `1`, `1e3` as `1000`, and integers beyond 2^53 are rounded.
- `filepath.Join` is plain concatenation with '/' over clean paths. `filepath.Abs` is replaced by the root parameter, and the `kmd-*` glob by its result.
- `algod.MakeClient` is an input flag. The client URL and token contents are not modelled; only the token file's presence is.
- Wall-clock time: the 10 s timeout and 500 ms tick become the number of polls made before the timer fires. Which of the two `select` cases wins when both are ready is folded into that number.
- docopt parsing: the parsed command is the `Command` input, and `--base-dir` / `--force-download` are not modelled because the source never reads them.
- `Releases.LeftmostMatch`: tags are Go strings of bytes, while the model scans characters. The two agree on the ASCII tags GitHub returns.
- `Endpoints.PortOfShape`: `unicode.IsSpace` is modelled on characters. Go decodes UTF-8 bytes first, and invalid UTF-8 is not modelled.

=== FILE: configs.dfy ===
/** Configuration patching (algorun.go:250-280).

    Both configuration files are decoded as untyped JSON objects, three keys
    are overwritten, and the objects are written back. Only the keys below
    are touched; every other key passes through unchanged.
 */
module Configs {
  import opened Outcomes
  import opened Text
  import Endpoints

  /** A decoded JSON value. `json.Unmarshal` into `interface{}` turns every
      number into a float64; a number here is named by a canonical text of
      that float64, so `1.0` and `1` decode to the same value. */
  datatype Json =
    | JNull
    | JBool(b: bool)
    | JNumber(float: string)
    | JString(str: string)
    | JArray(items: seq<Json>)
    | JObject(fields: map<string, Json>)

  /** Go's `map[string]interface{}`. */
  type Object = map<string, Json>

  const AllowedOriginsKey := "allowed_origins"
  const AddressKey := "address"
  const EndpointAddressKey := "EndpointAddress"

  /** Every origin is allowed: `[]string{"*"}`. */
  const AnyOrigin := JArray([JString("*")])

  /** The host part that binds every interface. */
  const AllInterfaces := "0.0.0.0"

  /** A listen address bound to all interfaces on `port`: `0.0.0.0:<port>`. */
  function BindAll(port: string): string {
    AllInterfaces + ":" + port
  }

  /** `json.Unmarshal` into a nil `map[string]interface{}`: only a JSON object
      yields a map. Text that is not JSON (`None`), `null`, and any other
      value leave the map nil. */
  function DecodeObject(doc: Option<Json>): (m: Option<Object>)
    ensures m.Some? <==> doc.Some? && doc.value.JObject?
    ensures m.Some? ==> m.value == doc.value.fields
  {
    match doc
    case Some(JObject(fields)) => Some(fields)
    case _ => None
  }

  /** `r` agrees with `m` on every key outside `keys`. */
  ghost predicate SameOutside(m: Object, r: Object, keys: set<string>) {
    forall k :: k !in keys ==> (k in m <==> k in r) && (k in m ==> m[k] == r[k])
  }

  /** The kmd patch: allow every origin and listen on all interfaces on the
      kmd port. Assigning into a nil map panics, so a nil map stays a failure. */
  function PatchKmd(m: Option<Object>, kmdPort: string): (r: Option<Object>)
    ensures r.Some? <==> m.Some?
    ensures r.Some? ==> r.value.Keys == m.value.Keys + {AllowedOriginsKey, AddressKey}
    ensures r.Some? ==> r.value[AllowedOriginsKey] == AnyOrigin
    ensures r.Some? ==> r.value[AddressKey] == JString(BindAll(kmdPort))
    ensures r.Some? ==> SameOutside(m.value, r.value, {AllowedOriginsKey, AddressKey})
  {
    match m
    case None => None
    case Some(fields) =>
      Some(fields[AllowedOriginsKey := AnyOrigin][AddressKey := JString(BindAll(kmdPort))])
  }

  /** The node patch: listen on all interfaces on the node's port. */
  function PatchAlgod(m: Option<Object>, algodPort: string): (r: Option<Object>)
    ensures r.Some? <==> m.Some?
    ensures r.Some? ==> r.value.Keys == m.value.Keys + {EndpointAddressKey}
    ensures r.Some? ==> r.value[EndpointAddressKey] == JString(BindAll(algodPort))
    ensures r.Some? ==> SameOutside(m.value, r.value, {EndpointAddressKey})
  {
    match m
    case None => None
    case Some(fields) => Some(fields[EndpointAddressKey := JString(BindAll(algodPort))])
  }

  /** Patching is idempotent: decoding the written kmd object and patching it
      again gives the same object. */
  lemma PatchKmdIdempotent(m: Object, kmdPort: string)
    ensures var once := PatchKmd(Some(m), kmdPort).value;
      PatchKmd(DecodeObject(Some(JObject(once))), kmdPort) == Some(once)
  {
    var once := PatchKmd(Some(m), kmdPort).value;
    var twice := PatchKmd(Some(once), kmdPort).value;
    assert twice.Keys == once.Keys;
    assert forall k :: k in once ==> twice[k] == once[k];
    assert twice == once;
  }

  /** Patching is idempotent: decoding the written node object and patching it
      again gives the same object. */
  lemma PatchAlgodIdempotent(m: Object, algodPort: string)
    ensures var once := PatchAlgod(Some(m), algodPort).value;
      PatchAlgod(DecodeObject(Some(JObject(once))), algodPort) == Some(once)
  {
    var once := PatchAlgod(Some(m), algodPort).value;
    var twice := PatchAlgod(Some(once), algodPort).value;
    assert twice.Keys == once.Keys;
    assert forall k :: k in once ==> twice[k] == once[k];
    assert twice == once;
  }

  /** The written address keeps the discovered port: discovering the port
      from the bind-all address gives back the port it was built from. */
  lemma BindAllKeepsPort(contents: string)
    ensures Endpoints.PortOf(BindAll(Endpoints.PortOf(contents))) == Endpoints.PortOf(contents)
  {
    Endpoints.PortOfShape(contents);
    Endpoints.PortOfUnpadded(AllInterfaces, Endpoints.PortOf(contents));
  }
}

=== FILE: endpoints.dfy ===
/** Port discovery (algorun.go:241-248).

    After its first start the node writes `algod.net` into its data
    directory and the key-management daemon writes `kmd.net` into its own
    directory; each holds an address of the form `host:port`. The port is
    the last ':'-separated field with surrounding white space removed.
 */
module Endpoints {
  import opened Text

  /** `strings.TrimSpace` of the last field of `strings.Split(contents, ":")`. */
  function PortOf(contents: string): string {
    TrimSpace(LastField(contents, ':'))
  }

  /** The port holds no ':', has no white space at either end, and is the
      last ':'-field of the file with only white space trimmed around it. */
  lemma PortOfShape(contents: string)
    ensures var port := PortOf(contents);
      && ':' !in port
      && (port == "" || (!IsSpace(port[0]) && !IsSpace(port[|port| - 1])))
      && exists i :: TrimmedAt(LastField(contents, ':'), i, port)
  {
    var field := LastField(contents, ':');
    var port := TrimSpace(field);
    var i :| TrimmedAt(field, i, port);
    NotInSlice(field, i, i + |port|, ':');
  }

  /** Discovery recovers the port the daemon wrote, whatever the host part
      holds (even further ':'s, as in an IPv6 address) and however the port
      is padded with white space. */
  lemma PortOfAddress(host: string, w1: string, port: string, w2: string)
    requires AllSpace(w1) && AllSpace(w2)
    requires ':' !in port
    requires port == "" || (!IsSpace(port[0]) && !IsSpace(port[|port| - 1]))
    ensures PortOf(host + ":" + w1 + port + w2) == port
  {
    var field := w1 + port + w2;
    assert ':' !in field by {
      forall k | 0 <= k < |field|
        ensures field[k] != ':'
      {
        if k < |w1| {
          assert IsSpace(field[k]);
        } else if k >= |w1| + |port| {
          assert field[k] == w2[k - |w1| - |port|];
        } else {
          assert field[k] == port[k - |w1|];
        }
      }
    }
    assert host + ":" + w1 + port + w2 == host + [':'] + field;
    LastFieldAfterSeparator(host, field, ':');
    TrimSpaceOfPadded(w1, port, w2);
  }

  /** Discovery recovers an unpadded port. */
  lemma PortOfUnpadded(host: string, port: string)
    requires ':' !in port
    requires port == "" || (!IsSpace(port[0]) && !IsSpace(port[|port| - 1]))
    ensures PortOf(host + ":" + port) == port
  {
    assert host + ":" + port == host + ":" + "" + port + "";
    PortOfAddress(host, "", port, "");
  }

  /** Discovery never rejects a file: one without any ':' yields its whole
      text, trimmed, as the port. */
  lemma PortOfWithoutColon(contents: string)
    requires ':' !in contents
    ensures PortOf(contents) == TrimSpace(contents)
  {
    SplitWithoutSeparator(contents, ':');
  }

  /** A typical `algod.net` file, with its trailing newline, yields its port. */
  lemma PortOfNetFile()
    ensures PortOf("127.0.0.1:8080\n") == "8080"
  {
    assert AllSpace("\n");
    assert "127.0.0.1" + ":" + "" + "8080" + "\n" == "127.0.0.1:8080\n";
    PortOfAddress("127.0.0.1", "", "8080", "\n");
  }
}

=== FILE: orchestrator.dfy ===
/** The command flow of algorun (algorun.go:106-137, 189-395).

    Each command is modelled as the run it produces: the sequence of
    externally visible actions it takes (directories made, network calls,
    control-binary invocations, copies, config writes) and how it ends.
    Everything the process observes from outside (the release listing, the
    glob result, file contents, JSON decoding, status polls, the catchpoint
    label) is an input collected in a `World`.
 */
module Orchestrator {
  import opened Outcomes
  import opened Text
  import opened Releases
  import opened Endpoints
  import opened Configs
  import opened SyncMonitor

  // ---------------------------------------------------------------------
  // Installation layout
  // ---------------------------------------------------------------------

  /** `filepath.Join(dir, name)` for a clean directory and a clean relative name. */
  function PathJoin(dir: string, name: string): string {
    dir + "/" + name
  }

  /** The directory roles of one installation (`Props`). */
  datatype Paths = Paths(
    downloads: string,
    temp: string,
    base: string,
    data: string,
    bin: string,
    goal: string)

  /** The layout under the absolute root `test-algorun-dir`. */
  function PathsFor(root: string): Paths {
    var base := PathJoin(root, "base");
    var bin := PathJoin(base, "bin");
    Paths(PathJoin(root, "downloads"), PathJoin(root, "temp"), base,
          PathJoin(base, "data"), bin, PathJoin(bin, "goal"))
  }

  // ---------------------------------------------------------------------
  // Actions and runs
  // ---------------------------------------------------------------------

  datatype Action =
    | MakeDir(path: string)                 // os.MkdirAll
    | ListReleases                          // the release listing call
    | Download(url: string, dir: string)    // downloadFile into a directory
    | Extract(archive: string, dest: string)
    | Exec(command: string)                 // execCmd; it starts ExecArgv(command)
    | CopyPath(src: string, dst: string)    // copy.Copy
    | RemoveAll(path: string)
    | WriteJson(path: string, doc: Object)  // bytesToFile of the indented JSON
    | StatusCall                            // one status request to the node
    | FetchCatchpoint                       // the catchpoint label request

  /** Actions that change the installation on disk or the running node. */
  predicate Mutates(a: Action) {
    a.Exec? || a.CopyPath? || a.RemoveAll? || a.WriteJson?
  }

  datatype End = Done | Abort(failure: Failure)

  /** What a command does, in order, and how it ends. */
  datatype Run = Run(actions: seq<Action>, end: End)

  function Then(prefix: seq<Action>, r: Run): Run {
    Run(prefix + r.actions, r.end)
  }

  // ---------------------------------------------------------------------
  // Invoking the control binary
  // ---------------------------------------------------------------------

  /** `execCmd`: the command line is split on single spaces; the first field
      names the program and the rest are its arguments (`Text.Split` and
      `Text.SplitJoin` say how the fields relate to the line). */
  function ExecArgv(command: string): seq<string> {
    Split(command, ' ')
  }

  /** `goalCmd`: `<GoalPath> -d <DataDir> <args>`. */
  function GoalCommand(p: Paths, args: string): string {
    p.goal + " -d " + p.data + " " + args
  }

  function GoalCmd(p: Paths, args: string): Action {
    Exec(GoalCommand(p, args))
  }

  /** With space-free paths the control binary runs with `-d <DataDir>`
      followed by the space-separated words of `args`. */
  lemma GoalArgv(p: Paths, args: string)
    requires ' ' !in p.goal && ' ' !in p.data
    ensures ExecArgv(GoalCommand(p, args)) == [p.goal, "-d", p.data] + Split(args, ' ')
  {
    GoalWords(p.goal, p.data, args);
  }

  lemma GoalWords(goal: string, data: string, args: string)
    requires ' ' !in goal && ' ' !in data
    ensures Split(goal + " -d " + data + " " + args, ' ') == [goal, "-d", data] + Split(args, ' ')
  {
    var rest2 := data + [' '] + args;
    var rest1 := "-d" + [' '] + rest2;
    assert goal + " -d " + data + " " + args == goal + [' '] + rest1;
    SplitFirstField(goal, rest1, ' ');
    SplitFirstField("-d", rest2, ' ');
    assert Split(rest1, ' ') == ["-d"] + Split(rest2, ' ');
    SplitFirstField(data, args, ' ');
    assert Split(rest2, ' ') == [data] + Split(args, ' ');
  }

  /** Arguments made of space-free words reach the control binary word for word. */
  lemma GoalArgvOfWords(p: Paths, words: seq<string>)
    requires ' ' !in p.goal && ' ' !in p.data
    requires |words| >= 1 && forall i :: 0 <= i < |words| ==> ' ' !in words[i]
    ensures ExecArgv(GoalCommand(p, Join(words, ' '))) == [p.goal, "-d", p.data] + words
  {
    GoalArgv(p, Join(words, ' '));
    SplitJoin(words, ' ');
  }

  /** A root without spaces gives a goal path and data directory without spaces. */
  lemma PathsWithoutSpaces(root: string)
    requires ' ' !in root
    ensures ' ' !in PathsFor(root).goal && ' ' !in PathsFor(root).data
  {
  }

  /** A space in the root splits the goal path itself: the program that is
      run is the part of the root before the first space, not the goal binary. */
  lemma SpaceInRootSplitsProgram(pre: string, post: string, args: string)
    requires ' ' !in pre
    ensures var p := PathsFor(pre + " " + post);
      ExecArgv(GoalCommand(p, args))[0] == pre != p.goal
  {
    var p := PathsFor(pre + " " + post);
    var tail := p.goal[|pre| + 1..];
    assert p.goal == pre + [' '] + tail;
    var rest := tail + " -d " + p.data + " " + args;
    assert GoalCommand(p, args) == pre + [' '] + rest;
    SplitFirstField(pre, rest, ' ');
  }

  /** `nodeStart`: the node, then the key-management daemon with no idle timeout. */
  function NodeStart(p: Paths): seq<Action> {
    [GoalCmd(p, "node start"), GoalCmd(p, "kmd start -t 0")]
  }

  /** `nodeStop`: the node, then the key-management daemon. */
  function NodeStop(p: Paths): seq<Action> {
    [GoalCmd(p, "node stop"), GoalCmd(p, "kmd stop")]
  }

  /** `nodeStatus` */
  function NodeStatus(p: Paths): seq<Action> {
    [GoalCmd(p, "node status")]
  }

  /** The processes `nodeStop` starts. */
  lemma NodeStopArgv(p: Paths)
    requires ' ' !in p.goal && ' ' !in p.data
    ensures var d := [p.goal, "-d", p.data];
      && ExecArgv(NodeStop(p)[0].command) == d + ["node", "stop"]
      && ExecArgv(NodeStop(p)[1].command) == d + ["kmd", "stop"]
  {
    assert Join(["node", "stop"], ' ') == "node stop";
    GoalArgvOfWords(p, ["node", "stop"]);
    assert Join(["kmd", "stop"], ' ') == "kmd stop";
    GoalArgvOfWords(p, ["kmd", "stop"]);
  }

  /** The processes `nodeStart` starts. */
  lemma NodeStartArgv(p: Paths)
    requires ' ' !in p.goal && ' ' !in p.data
    ensures var d := [p.goal, "-d", p.data];
      && ExecArgv(NodeStart(p)[0].command) == d + ["node", "start"]
      && ExecArgv(NodeStart(p)[1].command) == d + ["kmd", "start", "-t", "0"]
  {
    assert Join(["node", "start"], ' ') == "node start";
    GoalArgvOfWords(p, ["node", "start"]);
    KmdStartWords();
    GoalArgvOfWords(p, ["kmd", "start", "-t", "0"]);
  }

  lemma KmdStartWords()
    ensures Join(["kmd", "start", "-t", "0"], ' ') == "kmd start -t 0"
  {
    var words := ["kmd", "start", "-t", "0"];
    assert Join(words[2..], ' ') == "-t 0";
    assert Join(words[1..], ' ') == "start -t 0";
  }

  /** The process `nodeStatus` starts. */
  lemma NodeStatusArgv(p: Paths)
    requires ' ' !in p.goal && ' ' !in p.data
    ensures ExecArgv(NodeStatus(p)[0].command) == [p.goal, "-d", p.data, "node", "status"]
  {
    assert Join(["node", "status"], ' ') == "node status";
    GoalArgvOfWords(p, ["node", "status"]);
  }

  // ---------------------------------------------------------------------
  // Installing binaries and seeds
  // ---------------------------------------------------------------------

  /** Copies `TempDir/bin/<name>` to `BinDir/<name>`. */
  function CopyBinary(p: Paths, name: string): Action {
    CopyPath(PathJoin(PathJoin(p.temp, "bin"), name), PathJoin(p.bin, name))
  }

  /** `copyBinariesFromTmp`: goal, kmd and algod, in that order. */
  function CopyBinaries(p: Paths): seq<Action> {
    [CopyBinary(p, "goal"), CopyBinary(p, "kmd"), CopyBinary(p, "algod")]
  }

  /** The mainnet genesis file and the example node config go into the data directory. */
  function SeedDataDir(p: Paths): seq<Action> {
    [ CopyPath(PathJoin(PathJoin(PathJoin(p.temp, "genesis"), "mainnet"), "genesis.json"), PathJoin(p.data, "genesis.json")),
      CopyPath(PathJoin(PathJoin(p.temp, "data"), "config.json.example"), PathJoin(p.data, "config.json")) ]
  }

  // ---------------------------------------------------------------------
  // What the process observes
  // ---------------------------------------------------------------------

  /** The platform the binary was built for (`runtime.GOOS`, `runtime.GOARCH`). */
  datatype Platform = Platform(os: string, arch: string)

  datatype World = World(
    listing: Option<seq<string>>,     // release tags, newest first; None when the call fails
    storeResponds: bool,              // whether the tarball request got an HTTP response at all
    kmdDirs: Option<seq<string>>,     // matches of `<DataDir>/kmd-*`; None when the glob fails
    files: map<string, string>,       // contents of each readable file when it is read
    decoding: map<string, Json>,      // the JSON value of each text that is valid JSON
    clientOk: bool,                   // whether the node client could be constructed
    firstStatus: Poll,                // the status call before the polling loop
    polls: seq<Poll>,                 // status polls made before the timer fires
    catchpoint: Option<string>)       // the catchpoint label; None when the fetch fails

  function Decode(w: World, text: string): Option<Json> {
    if text in w.decoding then Some(w.decoding[text]) else None
  }

  // ---------------------------------------------------------------------
  // Commands
  // ---------------------------------------------------------------------

  /** `downloadAndExtractRelease`: resolve the tag, name the tarball, fetch it
      into the downloads directory and unpack it into the staging directory.
      When the request gets no HTTP response at all (the host cannot be
      resolved or reached), `downloadFile` reads the length of a nil
      response and panics before anything is extracted. */
  function DownloadAndExtract(p: Paths, plat: Platform, release: string, w: World): Run {
    Then([ListReleases],
      match w.listing
      case None => Run([], Abort(ListingFailed))
      case Some(tags) =>
        match GetVersion(tags, release)
        case Err(f) => Run([], Abort(f))
        case Ok(tag) =>
          match DecodeTag(tag)
          case Err(f) => Run([], Abort(f))
          case Ok(rel) =>
            var name := TarballName(rel.channel, plat.os, plat.arch, rel.version);
            var download := Download(ReleaseUrl(rel.channel, name), p.downloads);
            if !w.storeResponds then Run([download], Abort(NoResponse))
            else Run([download, Extract(PathJoin(p.downloads, name), p.temp)], Done))
  }

  /** The first half of `createCmd`: stop, wipe the data directory, install
      binaries and seeds, start. */
  function Prepare(p: Paths): seq<Action> {
    NodeStop(p) + [RemoveAll(p.data)] + CopyBinaries(p) + SeedDataDir(p) + NodeStart(p)
  }

  /** What `create` has read and patched once the node runs: the first
      key-management directory and both patched configuration objects. */
  datatype Patched = Patched(kmdDir: string, algodConfig: Object, kmdConfig: Object)

  /** Finds the key-management directory, reads both address files and both
      configuration files, in that order, and patches the configurations
      with the discovered ports. A missing file, a failed glob, an empty
      glob and a configuration that is not a JSON object each end the run. */
  function ReadAndPatch(p: Paths, w: World): (r: Result<Patched>)
    ensures w.kmdDirs.None? ==> r == Err(GlobFailed)
    ensures w.kmdDirs == Some([]) ==> r == Err(NoKmdDir)
    ensures r.Ok? ==> w.kmdDirs.Some? && |w.kmdDirs.value| > 0 && r.value.kmdDir == w.kmdDirs.value[0]
  {
    match w.kmdDirs
    case None => Err(GlobFailed)
    case Some(dirs) =>
      if |dirs| == 0 then Err(NoKmdDir)
      else
        var kmdDir := dirs[0];
        var kmdNetPath := PathJoin(kmdDir, "kmd.net");
        var algodNetPath := PathJoin(p.data, "algod.net");
        var algodConfigPath := PathJoin(p.data, "config.json");
        var kmdExamplePath := PathJoin(kmdDir, "kmd_config.json.example");
        if kmdNetPath !in w.files then Err(ReadFailed(kmdNetPath))
        else if algodNetPath !in w.files then Err(ReadFailed(algodNetPath))
        else if algodConfigPath !in w.files then Err(ReadFailed(algodConfigPath))
        else if kmdExamplePath !in w.files then Err(ReadFailed(kmdExamplePath))
        else
          var kmdPort := PortOf(w.files[kmdNetPath]);
          var algodPort := PortOf(w.files[algodNetPath]);
          var kmdConfig := PatchKmd(DecodeObject(Decode(w, w.files[kmdExamplePath])), kmdPort);
          var algodConfig := PatchAlgod(DecodeObject(Decode(w, w.files[algodConfigPath])), algodPort);
          if kmdConfig.None? then Err(NilConfigMap(kmdExamplePath))
          else if algodConfig.None? then Err(NilConfigMap(algodConfigPath))
          else Ok(Patched(kmdDir, algodConfig.value, kmdConfig.value))
  }

  /** What a successful read-and-patch produced: both address files were
      read, and the configurations carry the bind-all addresses on the ports
      found in them, with every origin allowed for kmd. */
  lemma PatchedConfigs(p: Paths, w: World)
    requires ReadAndPatch(p, w).Ok?
    ensures var c := ReadAndPatch(p, w).value;
      && var kmdNetPath := PathJoin(c.kmdDir, "kmd.net");
      && var algodNetPath := PathJoin(p.data, "algod.net");
      && kmdNetPath in w.files && algodNetPath in w.files
      && EndpointAddressKey in c.algodConfig
      && c.algodConfig[EndpointAddressKey] == JString(BindAll(PortOf(w.files[algodNetPath])))
      && AddressKey in c.kmdConfig && AllowedOriginsKey in c.kmdConfig
      && c.kmdConfig[AddressKey] == JString(BindAll(PortOf(w.files[kmdNetPath])))
      && c.kmdConfig[AllowedOriginsKey] == AnyOrigin
  {
  }

  /** `text` is valid JSON whose value is an object: what `json.Unmarshal`
      needs to leave a nil map non-nil. */
  predicate DecodesToObject(w: World, text: string) {
    text in w.decoding && w.decoding[text].JObject?
  }

  /** The four files are read in the order kmd.net, algod.net, config.json,
      kmd_config.json.example, and the first one missing ends the run. */
  lemma ReadAndPatchReadOrder(p: Paths, w: World)
    requires w.kmdDirs.Some? && |w.kmdDirs.value| > 0
    ensures var kmdDir := w.kmdDirs.value[0];
      var kmdNet := PathJoin(kmdDir, "kmd.net");
      var algodNet := PathJoin(p.data, "algod.net");
      var algodConfig := PathJoin(p.data, "config.json");
      var kmdExample := PathJoin(kmdDir, "kmd_config.json.example");
      var r := ReadAndPatch(p, w);
      && (kmdNet !in w.files ==> r == Err(ReadFailed(kmdNet)))
      && (kmdNet in w.files && algodNet !in w.files ==> r == Err(ReadFailed(algodNet)))
      && (kmdNet in w.files && algodNet in w.files && algodConfig !in w.files ==>
            r == Err(ReadFailed(algodConfig)))
      && (kmdNet in w.files && algodNet in w.files && algodConfig in w.files && kmdExample !in w.files ==>
            r == Err(ReadFailed(kmdExample)))
  {
  }

  /** Once all four files are read, the kmd map is assigned first: a kmd
      text that is not a JSON object ends the run on the kmd file, and only
      then does a node text that is not a JSON object end it on config.json.
      When both are objects the patch succeeds and every key it does not set
      keeps its decoded value. */
  lemma ReadAndPatchNilMaps(p: Paths, w: World)
    requires w.kmdDirs.Some? && |w.kmdDirs.value| > 0
    requires var kmdDir := w.kmdDirs.value[0];
      && PathJoin(kmdDir, "kmd.net") in w.files && PathJoin(p.data, "algod.net") in w.files
      && PathJoin(p.data, "config.json") in w.files && PathJoin(kmdDir, "kmd_config.json.example") in w.files
    ensures var kmdDir := w.kmdDirs.value[0];
      var algodConfig := PathJoin(p.data, "config.json");
      var kmdExample := PathJoin(kmdDir, "kmd_config.json.example");
      var algodText := w.files[algodConfig];
      var kmdText := w.files[kmdExample];
      var r := ReadAndPatch(p, w);
      && (!DecodesToObject(w, kmdText) ==> r == Err(NilConfigMap(kmdExample)))
      && (DecodesToObject(w, kmdText) && !DecodesToObject(w, algodText) ==> r == Err(NilConfigMap(algodConfig)))
      && (DecodesToObject(w, kmdText) && DecodesToObject(w, algodText) ==>
            && r.Ok?
            && SameOutside(w.decoding[kmdText].fields, r.value.kmdConfig, {AllowedOriginsKey, AddressKey})
            && SameOutside(w.decoding[algodText].fields, r.value.algodConfig, {EndpointAddressKey}))
  {
  }

  /** Ports discovered and configs patched and written, once the node runs. */
  function Configure(p: Paths, w: World): Run {
    match ReadAndPatch(p, w)
    case Err(f) => Run([], Abort(f))
    case Ok(c) =>
      Then([WriteJson(PathJoin(p.data, "config.json"), c.algodConfig),
            WriteJson(PathJoin(c.kmdDir, "kmd_config.json"), c.kmdConfig)],
           Monitor(p, w))
  }

  /** The node client, the starting round, and the wait for progress. */
  function Monitor(p: Paths, w: World): Run {
    var tokenPath := PathJoin(p.data, "algod.token");
    if tokenPath !in w.files then Run([], Abort(ReadFailed(tokenPath)))
    else if !w.clientOk then Run([], Abort(ClientFailed))
    else
      Then([StatusCall],
        match w.firstStatus
        case PollError => Run([], Abort(StatusFailed))
        case Round(start) =>
          var outcome := Wait(start, w.polls);
          Then(StatusCalls(PollsMade(outcome, |w.polls|)),
            match outcome
            case Synced(_) => CatchupStep(p, w)
            case PollFailed(_) => Run([], Abort(StatusFailed))
            case TimedOut => Run([], Abort(SyncTimedOut))))
  }

  /** `n` status requests. */
  function StatusCalls(n: nat): (r: seq<Action>)
    ensures |r| == n && forall i :: 0 <= i < n ==> r[i] == StatusCall
  {
    seq(n, _ => StatusCall)
  }

  /** `catchup`: fetch the label and start a fast catchup to it. */
  function CatchupStep(p: Paths, w: World): Run {
    Then([FetchCatchpoint],
      match w.catchpoint
      case None => Run([], Abort(CatchpointFailed))
      case Some(name) => Run([GoalCmd(p, "node catchup " + name)], Done))
  }

  /** `createCmd` */
  function CreateCmd(p: Paths, w: World): Run {
    Then(Prepare(p), Configure(p, w))
  }

  /** The commands of the usage text. The `--base-dir` and
      `--force-download` options are parsed but never read, so they are not
      part of the model. */
  datatype Command =
    | Create(release: string)
    | Update(release: string)
    | CatchupCommand
    | Start
    | Stop
    | Status
    | Goal(args: seq<string>)
    | Dashboard

  /** The release name, with "stable" when none was given. */
  function ReleaseName(cmd: Command): string {
    if (cmd.Create? || cmd.Update?) && cmd.release != "" then cmd.release else "stable"
  }

  /** The four directories are created before anything else. */
  function Setup(p: Paths): seq<Action> {
    [MakeDir(p.downloads), MakeDir(p.temp), MakeDir(p.data), MakeDir(p.bin)]
  }

  /** The command dispatch at the end of `main`, once the release (if any)
      is unpacked. */
  function Dispatch(cmd: Command, p: Paths, w: World): Run {
    match cmd
    case Create(_) => CreateCmd(p, w)
    case Update(_) => Run(NodeStop(p) + CopyBinaries(p) + NodeStart(p), Done)
    case Status => Run(NodeStatus(p), Done)
    case _ => Run([], Abort(UnrecognizedCommand))
  }

  /** `main` after argument parsing, with `root` the absolute path of
      `./test-algorun-dir`. */
  function Main(cmd: Command, root: string, plat: Platform, w: World): Run {
    var p := PathsFor(root);
    var fetch := if cmd.Create? || cmd.Update? then DownloadAndExtract(p, plat, ReleaseName(cmd), w) else Run([], Done);
    if fetch.end.Abort? then Then(Setup(p), fetch)
    else Then(Setup(p) + fetch.actions, Dispatch(cmd, p, w))
  }

  // ---------------------------------------------------------------------
  // Properties of the command flow
  // ---------------------------------------------------------------------

  /** An empty release name means "stable". */
  lemma EmptyReleaseIsStable(root: string, plat: Platform, w: World)
    ensures Main(Create(""), root, plat, w) == Main(Create("stable"), root, plat, w)
    ensures Main(Update(""), root, plat, w) == Main(Update("stable"), root, plat, w)
  {
  }

  /** Resolving and fetching a release lists the releases first, changes
      nothing in the installation, and either stops right after the listing,
      stops right after a download that got no response, or downloads and
      then extracts. */
  lemma FetchShape(p: Paths, plat: Platform, release: string, w: World)
    ensures var r := DownloadAndExtract(p, plat, release, w);
      && |r.actions| >= 1 && r.actions[0] == ListReleases
      && (forall i :: 0 <= i < |r.actions| ==> !Mutates(r.actions[i]))
      && (r.end.Abort? ==>
            || r.actions == [ListReleases]
            || (r.end == Abort(NoResponse) && |r.actions| == 2 && r.actions[1].Download?))
      && (r.end.Done? ==> |r.actions| == 3 && r.actions[1].Download? && r.actions[2].Extract?)
  {
  }

  /** Downloading comes before anything else: after the directories are made,
      `create` and `update` list releases, and nothing touches the
      installation before the tarball is downloaded and extracted. */
  lemma DownloadComesFirst(cmd: Command, root: string, plat: Platform, w: World)
    requires cmd.Create? || cmd.Update?
    ensures var acts := Main(cmd, root, plat, w).actions;
      && |acts| >= 5 && acts[..4] == Setup(PathsFor(root)) && acts[4] == ListReleases
      && forall i :: 0 <= i < |acts| && Mutates(acts[i]) ==> 6 < i && acts[5].Download? && acts[6].Extract?
  {
    var p := PathsFor(root);
    FetchShape(p, plat, ReleaseName(cmd), w);
    MainActions(cmd, root, plat, w);
    var fetch := DownloadAndExtract(p, plat, ReleaseName(cmd), w);
    FetchFirst(Setup(p), fetch, Dispatch(cmd, p, w).actions);
  }

  /** A fetch that mutates nothing and ends, when it completes, with a
      download and an extraction, keeps every mutation of what follows it
      after those two actions. */
  lemma FetchFirst(setup: seq<Action>, fetch: Run, rest: seq<Action>)
    requires |setup| == 4 && forall i :: 0 <= i < 4 ==> !Mutates(setup[i])
    requires |fetch.actions| >= 1 && fetch.actions[0] == ListReleases
    requires forall i :: 0 <= i < |fetch.actions| ==> !Mutates(fetch.actions[i])
    requires fetch.end.Done? ==> |fetch.actions| == 3 && fetch.actions[1].Download? && fetch.actions[2].Extract?
    ensures var acts := setup + fetch.actions + (if fetch.end.Done? then rest else []);
      && |acts| >= 5 && acts[..4] == setup && acts[4] == ListReleases
      && forall i :: 0 <= i < |acts| && Mutates(acts[i]) ==> 6 < i && acts[5].Download? && acts[6].Extract?
  {
    var acts := setup + fetch.actions + (if fetch.end.Done? then rest else []);
    assert acts[..4] == setup;
    assert forall i :: 0 <= i < 4 ==> acts[i] == setup[i];
    assert forall i :: 4 <= i < 4 + |fetch.actions| ==> acts[i] == fetch.actions[i - 4];
  }

  /** The actions of `create` and `update`: the directories, the fetch, and
      the command's own actions only when the fetch completed. */
  lemma MainActions(cmd: Command, root: string, plat: Platform, w: World)
    requires cmd.Create? || cmd.Update?
    ensures var p := PathsFor(root);
      var fetch := DownloadAndExtract(p, plat, ReleaseName(cmd), w);
      Main(cmd, root, plat, w).actions
        == Setup(p) + fetch.actions + (if fetch.end.Done? then Dispatch(cmd, p, w).actions else [])
  {
  }

  /** A failure while resolving or downloading the release happens before
      any change to the installation: the run only made directories, asked
      for the listing and perhaps requested the tarball. */
  lemma ResolveFailureChangesNothing(cmd: Command, root: string, plat: Platform, w: World)
    requires cmd.Create? || cmd.Update?
    requires DownloadAndExtract(PathsFor(root), plat, ReleaseName(cmd), w).end.Abort?
    ensures var r := Main(cmd, root, plat, w);
      && r.end.Abort?
      && forall i :: 0 <= i < |r.actions| ==> !Mutates(r.actions[i])
  {
  }

  /** A tag without '-' aborts right after the listing. */
  lemma TagWithoutChannelAborts(p: Paths, plat: Platform, release: string, w: World)
    requires w.listing.Some? && GetVersion(w.listing.value, release).Ok?
    requires '-' !in GetVersion(w.listing.value, release).value
    ensures DownloadAndExtract(p, plat, release, w) == Run([ListReleases], Abort(NoChannel))
  {
  }

  /** The first listed tag that matches the release name is fetched from its
      channel's directory under the tarball name built from the tag's channel
      and version, and the same file is extracted into the staging
      directory. For the tag "v3.16.2-stable" that is
      node_stable_<os>-<arch>_3.16.2.tar.gz under the stable channel. */
  lemma DownloadsTarballOfTag(p: Paths, plat: Platform, release: string, w: World,
                              pre: string, v: string, ch: string)
    requires w.listing.Some? && GetVersion(w.listing.value, release) == Ok(pre + v + "-" + ch)
    requires forall k :: 0 <= k < |pre| ==> !IsDigit(pre[k])
    requires '-' !in pre && IsVersionShape(v) && '\n' !in ch
    ensures var name := TarballName(ch, plat.os, plat.arch, v);
      var download := Download(ReleaseUrl(ch, name), p.downloads);
      DownloadAndExtract(p, plat, release, w) ==
        if w.storeResponds then Run([ListReleases, download, Extract(PathJoin(p.downloads, name), p.temp)], Done)
        else Run([ListReleases, download], Abort(NoResponse))
  {
    DecodeTagRoundTrip(pre, v, ch);
    DownloadsDecodedTag(p, plat, release, w, pre + v + "-" + ch, Release(pre + v + "-" + ch, v, ch));
  }

  lemma DownloadsDecodedTag(p: Paths, plat: Platform, release: string, w: World, tag: string, rel: Release)
    requires w.listing.Some? && GetVersion(w.listing.value, release) == Ok(tag)
    requires DecodeTag(tag) == Ok(rel)
    ensures var name := TarballName(rel.channel, plat.os, plat.arch, rel.version);
      var download := Download(ReleaseUrl(rel.channel, name), p.downloads);
      DownloadAndExtract(p, plat, release, w) ==
        if w.storeResponds then Run([ListReleases, download, Extract(PathJoin(p.downloads, name), p.temp)], Done)
        else Run([ListReleases, download], Abort(NoResponse))
  {
  }

  /** An unreachable release store stops `update` before it stops the node:
      the run requests the tarball and panics, and nothing is stopped,
      copied or started. */
  lemma UpdateWithoutResponse(release: string, root: string, plat: Platform, w: World)
    requires w.listing.Some? && GetVersion(w.listing.value, ReleaseName(Update(release))).Ok?
    requires DecodeTag(GetVersion(w.listing.value, ReleaseName(Update(release))).value).Ok?
    requires !w.storeResponds
    ensures var p := PathsFor(root);
      var rel := DecodeTag(GetVersion(w.listing.value, ReleaseName(Update(release))).value).value;
      var name := TarballName(rel.channel, plat.os, plat.arch, rel.version);
      Main(Update(release), root, plat, w)
        == Run(Setup(p) + [ListReleases, Download(ReleaseUrl(rel.channel, name), p.downloads)], Abort(NoResponse))
  {
  }

  /** `update`: stop both daemons, refresh the three binaries, start both. */
  lemma UpdateSequence(release: string, root: string, plat: Platform, w: World)
    requires ' ' !in root
    requires DownloadAndExtract(PathsFor(root), plat, ReleaseName(Update(release)), w).end.Done?
    ensures var p := PathsFor(root); var d := [p.goal, "-d", p.data];
      var fetch := DownloadAndExtract(p, plat, ReleaseName(Update(release)), w);
      var r := Main(Update(release), root, plat, w);
      var n := 4 + |fetch.actions|;
      && r.end == Done
      && |r.actions| == n + 7 && r.actions[..n] == Setup(p) + fetch.actions
      && r.actions[n].Exec? && ExecArgv(r.actions[n].command) == d + ["node", "stop"]
      && r.actions[n + 1].Exec? && ExecArgv(r.actions[n + 1].command) == d + ["kmd", "stop"]
      && r.actions[n + 2] == CopyPath(p.temp + "/bin/goal", p.bin + "/goal")
      && r.actions[n + 3] == CopyPath(p.temp + "/bin/kmd", p.bin + "/kmd")
      && r.actions[n + 4] == CopyPath(p.temp + "/bin/algod", p.bin + "/algod")
      && r.actions[n + 5].Exec? && ExecArgv(r.actions[n + 5].command) == d + ["node", "start"]
      && r.actions[n + 6].Exec? && ExecArgv(r.actions[n + 6].command) == d + ["kmd", "start", "-t", "0"]
  {
    var p := PathsFor(root);
    var fetch := DownloadAndExtract(p, plat, ReleaseName(Update(release)), w);
    var r := Main(Update(release), root, plat, w);
    var tail := NodeStop(p) + CopyBinaries(p) + NodeStart(p);
    UpdateRun(release, root, plat, w);
    PathsWithoutSpaces(root);
    UpdateTail(p);
    var n := 4 + |fetch.actions|;
    assert r.actions[n..] == tail;
  }

  lemma UpdateRun(release: string, root: string, plat: Platform, w: World)
    requires DownloadAndExtract(PathsFor(root), plat, ReleaseName(Update(release)), w).end.Done?
    ensures var p := PathsFor(root);
      var fetch := DownloadAndExtract(p, plat, ReleaseName(Update(release)), w);
      Main(Update(release), root, plat, w)
        == Run(Setup(p) + fetch.actions + (NodeStop(p) + CopyBinaries(p) + NodeStart(p)), Done)
  {
  }

  /** The actions `update` takes once the release is unpacked. */
  lemma UpdateTail(p: Paths)
    requires ' ' !in p.goal && ' ' !in p.data
    ensures var tail := NodeStop(p) + CopyBinaries(p) + NodeStart(p); var d := [p.goal, "-d", p.data];
      && |tail| == 7
      && ExecArgv(tail[0].command) == d + ["node", "stop"]
      && ExecArgv(tail[1].command) == d + ["kmd", "stop"]
      && tail[2] == CopyPath(p.temp + "/bin/goal", p.bin + "/goal")
      && tail[3] == CopyPath(p.temp + "/bin/kmd", p.bin + "/kmd")
      && tail[4] == CopyPath(p.temp + "/bin/algod", p.bin + "/algod")
      && ExecArgv(tail[5].command) == d + ["node", "start"]
      && ExecArgv(tail[6].command) == d + ["kmd", "start", "-t", "0"]
  {
    NodeStopArgv(p);
    NodeStartArgv(p);
    assert PathJoin(p.temp, "bin") + "/" + "goal" == p.temp + "/bin/goal";
    assert PathJoin(p.temp, "bin") + "/" + "kmd" == p.temp + "/bin/kmd";
    assert PathJoin(p.temp, "bin") + "/" + "algod" == p.temp + "/bin/algod";
    assert PathJoin(p.bin, "goal") == p.bin + "/goal";
    assert PathJoin(p.bin, "kmd") == p.bin + "/kmd";
    assert PathJoin(p.bin, "algod") == p.bin + "/algod";
  }

  /** `status` runs `node status` and nothing else after setup. */
  lemma StatusRunsNodeStatus(root: string, plat: Platform, w: World)
    ensures Main(Status, root, plat, w) == Run(Setup(PathsFor(root)) + NodeStatus(PathsFor(root)), Done)
  {
  }

  /** Every command other than create, update and status ends in the
      "Unrecognized command" panic, after only creating the directories. */
  lemma OtherCommandsAreUnrecognized(cmd: Command, root: string, plat: Platform, w: World)
    requires !cmd.Create? && !cmd.Update? && !cmd.Status?
    ensures Main(cmd, root, plat, w) == Run(Setup(PathsFor(root)), Abort(UnrecognizedCommand))
  {
  }

  /** No action in `acts` removes anything. */
  predicate NeverRemoves(acts: seq<Action>) {
    forall i :: 0 <= i < |acts| ==> !acts[i].RemoveAll?
  }

  /** `create` stops both daemons before it wipes the data directory, and
      wipes nothing else. */
  lemma CreateStopsBeforeWiping(p: Paths, w: World)
    ensures var acts := CreateCmd(p, w).actions;
      && |acts| >= 3 && acts[..2] == NodeStop(p) && acts[2] == RemoveAll(p.data)
      && forall i :: 0 <= i < |acts| && acts[i].RemoveAll? ==> i == 2
  {
    ConfigureNeverRemoves(p, w);
    var acts := CreateCmd(p, w).actions;
    assert acts == Prepare(p) + Configure(p, w).actions;
    assert forall i :: 3 <= i < |Prepare(p)| ==> !Prepare(p)[i].RemoveAll?;
  }

  lemma ConfigureNeverRemoves(p: Paths, w: World)
    ensures NeverRemoves(Configure(p, w).actions)
  {
    MonitorNeverRemoves(p, w);
    var r := ReadAndPatch(p, w);
    if r.Ok? {
      var c := r.value;
      assert Configure(p, w).actions
          == [WriteJson(PathJoin(p.data, "config.json"), c.algodConfig),
              WriteJson(PathJoin(c.kmdDir, "kmd_config.json"), c.kmdConfig)] + Monitor(p, w).actions;
    }
  }

  lemma MonitorNeverRemoves(p: Paths, w: World)
    ensures NeverRemoves(Monitor(p, w).actions)
  {
    assert NeverRemoves(CatchupStep(p, w).actions);
  }

  /** A completed `create` wrote both configs with the patched keys (ports
      as discovered from the daemons' address files), saw the node advance
      past its starting round, and ended by starting a catchup to the
      fetched label. */
  lemma CreateCompleted(p: Paths, w: World)
    requires CreateCmd(p, w).end == Done
    ensures w.kmdDirs.Some? && |w.kmdDirs.value| > 0
    ensures var kmdDir := w.kmdDirs.value[0];
      && PathJoin(kmdDir, "kmd.net") in w.files
      && PathJoin(p.data, "algod.net") in w.files
      && var acts := CreateCmd(p, w).actions;
      && |acts| >= 13
      && acts[..10] == Prepare(p)
      && acts[10].WriteJson? && acts[10].path == PathJoin(p.data, "config.json")
      && EndpointAddressKey in acts[10].doc
      && acts[10].doc[EndpointAddressKey] == JString(BindAll(PortOf(w.files[PathJoin(p.data, "algod.net")])))
      && acts[11].WriteJson? && acts[11].path == PathJoin(kmdDir, "kmd_config.json")
      && AddressKey in acts[11].doc && AllowedOriginsKey in acts[11].doc
      && acts[11].doc[AddressKey] == JString(BindAll(PortOf(w.files[PathJoin(kmdDir, "kmd.net")])))
      && acts[11].doc[AllowedOriginsKey] == AnyOrigin
      && acts[12] == StatusCall
    ensures w.firstStatus.Round? && Wait(w.firstStatus.round, w.polls).Synced?
    ensures w.catchpoint.Some?
    ensures var acts := CreateCmd(p, w).actions;
      acts[|acts| - 1] == GoalCmd(p, "node catchup " + w.catchpoint.value)
  {
    var acts := CreateCmd(p, w).actions;
    var rest := Configure(p, w).actions;
    assert acts == Prepare(p) + rest;
    assert |Prepare(p)| == 10;
    ConfigureCompleted(p, w);
    assert acts[10] == rest[0] && acts[11] == rest[1] && acts[12] == rest[2];
    assert acts[|acts| - 1] == rest[|rest| - 1];
  }

  /** Once the node runs, a completed `create` writes the patched node config,
      then the patched kmd config, then polls, and ends with the catchup. */
  lemma ConfigureCompleted(p: Paths, w: World)
    requires Configure(p, w).end == Done
    ensures w.kmdDirs.Some? && |w.kmdDirs.value| > 0
    ensures var kmdDir := w.kmdDirs.value[0];
      && PathJoin(kmdDir, "kmd.net") in w.files
      && PathJoin(p.data, "algod.net") in w.files
      && var acts := Configure(p, w).actions;
      && |acts| >= 3
      && acts[0].WriteJson? && acts[0].path == PathJoin(p.data, "config.json")
      && EndpointAddressKey in acts[0].doc
      && acts[0].doc[EndpointAddressKey] == JString(BindAll(PortOf(w.files[PathJoin(p.data, "algod.net")])))
      && acts[1].WriteJson? && acts[1].path == PathJoin(kmdDir, "kmd_config.json")
      && AddressKey in acts[1].doc && AllowedOriginsKey in acts[1].doc
      && acts[1].doc[AddressKey] == JString(BindAll(PortOf(w.files[PathJoin(kmdDir, "kmd.net")])))
      && acts[1].doc[AllowedOriginsKey] == AnyOrigin
      && acts[2] == StatusCall
    ensures w.firstStatus.Round? && Wait(w.firstStatus.round, w.polls).Synced?
    ensures w.catchpoint.Some?
    ensures var acts := Configure(p, w).actions;
      acts[|acts| - 1] == GoalCmd(p, "node catchup " + w.catchpoint.value)
  {
    var r := ReadAndPatch(p, w);
    assert r.Ok?;
    var c := r.value;
    ConfigureWritesThenMonitors(p, w);
    PatchedConfigs(p, w);
    MonitorCompleted(p, w);
    var tail := Monitor(p, w).actions;
    var acts := Configure(p, w).actions;
    PairThenTail(acts, WriteJson(PathJoin(p.data, "config.json"), c.algodConfig),
                 WriteJson(PathJoin(c.kmdDir, "kmd_config.json"), c.kmdConfig), tail);
  }

  /** Indexing into two actions followed by a non-empty tail. */
  lemma PairThenTail(acts: seq<Action>, a: Action, b: Action, tail: seq<Action>)
    requires acts == [a, b] + tail && |tail| > 0
    ensures |acts| >= 3 && acts[0] == a && acts[1] == b && acts[2] == tail[0]
    ensures acts[|acts| - 1] == tail[|tail| - 1]
  {
  }

  /** A successful read-and-patch is followed by the two config writes and
      then the whole wait-and-catchup, which decides how the run ends. */
  lemma ConfigureWritesThenMonitors(p: Paths, w: World)
    requires ReadAndPatch(p, w).Ok?
    ensures var c := ReadAndPatch(p, w).value;
      && c.kmdDir == w.kmdDirs.value[0]
      && Configure(p, w).actions
         == [WriteJson(PathJoin(p.data, "config.json"), c.algodConfig),
             WriteJson(PathJoin(c.kmdDir, "kmd_config.json"), c.kmdConfig)] + Monitor(p, w).actions
      && Configure(p, w).end == Monitor(p, w).end
  {
  }

  /** A completed wait-and-catchup made the first status call, saw the node
      advance, and ended by starting a catchup to the fetched label. */
  lemma MonitorCompleted(p: Paths, w: World)
    requires Monitor(p, w).end == Done
    ensures w.firstStatus.Round? && Wait(w.firstStatus.round, w.polls).Synced?
    ensures w.catchpoint.Some?
    ensures var acts := Monitor(p, w).actions;
      && |acts| >= 2 && acts[0] == StatusCall
      && acts[|acts| - 1] == GoalCmd(p, "node catchup " + w.catchpoint.value)
  {
  }

  /** Once the client is up, a node that never advances past its starting
      round makes the wait time out after one status call per tick, and no
      catchup is attempted. */
  lemma MonitorTimesOut(p: Paths, w: World)
    requires PathJoin(p.data, "algod.token") in w.files && w.clientOk
    requires w.firstStatus.Round? && Quiet(w.firstStatus.round, w.polls, |w.polls|)
    ensures Monitor(p, w) == Run([StatusCall] + StatusCalls(|w.polls|), Abort(SyncTimedOut))
  {
  }

  /** A status poll that fails ends the wait at once: one status call per
      poll up to and including the failed one, then the panic. */
  lemma MonitorPollFails(p: Paths, w: World, at: nat)
    requires PathJoin(p.data, "algod.token") in w.files && w.clientOk
    requires w.firstStatus.Round? && Wait(w.firstStatus.round, w.polls) == PollFailed(at)
    ensures Monitor(p, w) == Run([StatusCall] + StatusCalls(at + 1), Abort(StatusFailed))
  {
  }

  /** The exits before the polling loop and after it: an unreadable token
      file, a client that cannot be built and a failed first status call each
      end the run before any poll, and a label that cannot be fetched ends a
      successful wait without a catchup. */
  lemma MonitorEarlyExits(p: Paths, w: World)
    ensures var tokenPath := PathJoin(p.data, "algod.token");
      && (tokenPath !in w.files ==> Monitor(p, w) == Run([], Abort(ReadFailed(tokenPath))))
      && (tokenPath in w.files && !w.clientOk ==> Monitor(p, w) == Run([], Abort(ClientFailed)))
      && (tokenPath in w.files && w.clientOk && w.firstStatus.PollError? ==>
            Monitor(p, w) == Run([StatusCall], Abort(StatusFailed)))
      && (tokenPath in w.files && w.clientOk && w.firstStatus.Round? && w.catchpoint.None? &&
          Wait(w.firstStatus.round, w.polls).Synced? ==>
            Monitor(p, w) == Run([StatusCall] + StatusCalls(Wait(w.firstStatus.round, w.polls).at + 1) + [FetchCatchpoint],
                                 Abort(CatchpointFailed)))
  {
  }

  /** A failed status poll makes `create` fail, and no catchup is attempted. */
  lemma CreatePollFails(p: Paths, w: World, at: nat)
    requires w.firstStatus.Round? && Wait(w.firstStatus.round, w.polls) == PollFailed(at)
    ensures CreateCmd(p, w).end.Abort?
    ensures FetchCatchpoint !in CreateCmd(p, w).actions
  {
    var acts := CreateCmd(p, w).actions;
    assert acts == Prepare(p) + Configure(p, w).actions;
    assert FetchCatchpoint !in Prepare(p);
    assert FetchCatchpoint !in Monitor(p, w).actions;
  }

  /** A node that never advances past its starting round makes `create`
      fail, and no catchup is attempted. */
  lemma CreateTimesOut(p: Paths, w: World)
    requires w.firstStatus.Round? && Quiet(w.firstStatus.round, w.polls, |w.polls|)
    ensures CreateCmd(p, w).end.Abort?
    ensures FetchCatchpoint !in CreateCmd(p, w).actions
  {
    var acts := CreateCmd(p, w).actions;
    assert acts == Prepare(p) + Configure(p, w).actions;
    assert FetchCatchpoint !in Prepare(p);
    assert FetchCatchpoint !in Monitor(p, w).actions;
  }
}

=== FILE: outcomes.dfy ===
/** Failure-carrying values shared by the whole model.

    Every way the orchestrator can end early (a `panic`, a `log.Fatal`, a
    slice or index out of range) is one `Failure`; a step that can end
    early returns a `Result`.
 */
module Outcomes {

  datatype Option<+T> = None | Some(value: T)

  /** The reasons the orchestrator process can abort. */
  datatype Failure =
    | ListingFailed              // the release listing call returned an error
    | NoMatchFound               // no release tag contains the requested channel
    | NoChannel                  // the tag has no '-', so the channel slice is out of range
    | NoResponse                 // the tarball request got no HTTP response, so reading its length panics
    | GlobFailed                 // the kmd directory glob returned an error
    | NoKmdDir                   // the kmd directory glob matched nothing
    | ReadFailed(path: string)   // a file the orchestrator reads could not be read
    | NilConfigMap(path: string) // the config file did not decode to an object
    | ClientFailed               // the node client could not be constructed
    | StatusFailed               // a status call to the node returned an error
    | SyncTimedOut               // the node did not advance before the timer fired
    | CatchpointFailed           // the catchpoint label could not be fetched
    | UnrecognizedCommand        // the command is not one the dispatcher handles

  datatype Result<+T> = Ok(value: T) | Err(failure: Failure)
}

=== FILE: releases.dfy ===
/** Release resolution and artifact naming (algorun.go:165-209).

    A release listing is the sequence of tag names in the order the listing
    service returns them. The chosen tag is decoded into a version (the
    leftmost match of the regular expression `\d+\.\d+\.\d+`) and a channel
    (what the expression `-(.*)` captures), which name the tarball and the
    URL it is fetched from.
 */
module Releases {
  import opened Outcomes
  import opened Text

  // ---------------------------------------------------------------------
  // Resolving a channel name to a tag
  // ---------------------------------------------------------------------

  /** Tag `i` is the first tag of the listing that contains `pattern`. */
  ghost predicate FirstContaining(tags: seq<string>, pattern: string, i: int) {
    && 0 <= i < |tags|
    && Contains(tags[i], pattern)
    && forall j :: 0 <= j < i ==> !Contains(tags[j], pattern)
  }

  /** Index of the first tag at or after `from` that contains `pattern`. */
  function FirstMatchFrom(tags: seq<string>, pattern: string, from: nat): (r: Option<nat>)
    requires from <= |tags|
    ensures r.Some? ==> from <= r.value < |tags| && Contains(tags[r.value], pattern)
    ensures r.Some? ==> forall j :: from <= j < r.value ==> !Contains(tags[j], pattern)
    ensures r.None? ==> forall j :: from <= j < |tags| ==> !Contains(tags[j], pattern)
    decreases |tags| - from
  {
    if from == |tags| then None
    else if Contains(tags[from], pattern) then Some(from)
    else FirstMatchFrom(tags, pattern, from + 1)
  }

  /** `getVersion`: the first tag of the listing, in listing order, that
      contains `pattern`; "no match found" exactly when no tag contains it. */
  function GetVersion(tags: seq<string>, pattern: string): (r: Result<string>)
    ensures r.Ok? ==> Contains(r.value, pattern)
    ensures r.Ok? ==> exists i :: FirstContaining(tags, pattern, i) && tags[i] == r.value
    ensures r.Err? ==> r.failure == NoMatchFound
    ensures r.Err? <==> forall j :: 0 <= j < |tags| ==> !Contains(tags[j], pattern)
  {
    match FirstMatchFrom(tags, pattern, 0)
    case Some(i) =>
      assert FirstContaining(tags, pattern, i);
      Ok(tags[i])
    case None => Err(NoMatchFound)
  }

  /** Only the first containing tag matters: tags after it never change the answer. */
  lemma GetVersionIgnoresLaterTags(tags: seq<string>, more: seq<string>, pattern: string)
    requires GetVersion(tags, pattern).Ok?
    ensures GetVersion(tags + more, pattern) == GetVersion(tags, pattern)
  {
    FirstMatchIgnoresLaterTags(tags, more, pattern, 0);
  }

  lemma {:induction false} FirstMatchIgnoresLaterTags(tags: seq<string>, more: seq<string>, pattern: string, from: nat)
    requires from <= |tags| && FirstMatchFrom(tags, pattern, from).Some?
    ensures FirstMatchFrom(tags + more, pattern, from) == FirstMatchFrom(tags, pattern, from)
    decreases |tags| - from
  {
    assert (tags + more)[from] == tags[from];
    if !Contains(tags[from], pattern) {
      FirstMatchIgnoresLaterTags(tags, more, pattern, from + 1);
    }
  }

  // ---------------------------------------------------------------------
  // The version: leftmost match of \d+\.\d+\.\d+
  // ---------------------------------------------------------------------

  predicate DigitsBetween(s: string, lo: int, hi: int)
    requires 0 <= lo <= hi <= |s|
  {
    forall k :: lo <= k < hi ==> IsDigit(s[k])
  }

  /** `v` is a word of the language `\d+\.\d+\.\d+`. */
  ghost predicate IsVersionShape(v: string) {
    exists p, q :: ShapeSplit(v, p, q)
  }

  /** The two dots of a version-shaped string sit at `p` and `q`. */
  ghost predicate ShapeSplit(v: string, p: int, q: int) {
    && 0 < p && p + 1 < q && q + 1 < |v|
    && v[p] == '.' && v[q] == '.'
    && DigitsBetween(v, 0, p) && DigitsBetween(v, p + 1, q) && DigitsBetween(v, q + 1, |v|)
  }

  /** `s[i..e]` matches the version expression. */
  ghost predicate PatternAt(s: string, i: int, e: int) {
    0 <= i <= e <= |s| && IsVersionShape(s[i..e])
  }

  /** `v` is what Go's leftmost-first `FindString` returns for the version
      expression: it occurs at `i`, no match starts earlier, and its last
      digit run cannot be extended (the greedy `\d+`). */
  ghost predicate LeftmostVersionAt(s: string, i: int, v: string) {
    && 0 <= i <= |s| - |v|
    && s[i..i + |v|] == v
    && IsVersionShape(v)
    && (i + |v| == |s| || !IsDigit(s[i + |v|]))
    && forall j, e :: 0 <= j < i ==> !PatternAt(s, j, e)
  }

  /** Length of the maximal run of digits starting at `i`. */
  function DigitRun(s: string, i: nat): (n: nat)
    requires i <= |s|
    ensures i + n <= |s| && DigitsBetween(s, i, i + n)
    ensures i + n == |s| || !IsDigit(s[i + n])
    decreases |s| - i
  {
    if i < |s| && IsDigit(s[i]) then 1 + DigitRun(s, i + 1) else 0
  }

  /** A digit run of known extent is the maximal one. */
  lemma DigitRunExact(s: string, i: nat, n: nat)
    requires i + n <= |s| && DigitsBetween(s, i, i + n)
    requires i + n == |s| || !IsDigit(s[i + n])
    ensures DigitRun(s, i) == n
  {
  }

  /** A run of at least `n` digits starts at `i`. */
  lemma DigitRunAtLeast(s: string, i: nat, n: nat)
    requires i + n <= |s| && DigitsBetween(s, i, i + n)
    ensures DigitRun(s, i) >= n
  {
  }

  /** End of the match of the version expression starting at `i`, if any:
      each `\d+` takes the maximal run, the only choice that lets the
      following `\.` match (and the greedy choice for the last one). */
  function MatchEnd(s: string, i: nat): (r: Option<nat>)
    requires i <= |s|
    ensures r.Some? ==> i < r.value <= |s|
  {
    var a := DigitRun(s, i);
    if a == 0 || i + a >= |s| || s[i + a] != '.' then None
    else
      var b := DigitRun(s, i + a + 1);
      if b == 0 || i + a + 1 + b >= |s| || s[i + a + 1 + b] != '.' then None
      else
        var c := DigitRun(s, i + a + b + 2);
        if c == 0 then None else Some(i + a + b + 2 + c)
  }

  /** What `MatchEnd` finds is a maximal match of the expression. */
  lemma MatchEndSound(s: string, i: nat)
    requires i <= |s| && MatchEnd(s, i).Some?
    ensures PatternAt(s, i, MatchEnd(s, i).value)
    ensures var e := MatchEnd(s, i).value; e == |s| || !IsDigit(s[e])
  {
    var e := MatchEnd(s, i).value;
    var a := DigitRun(s, i);
    var b := DigitRun(s, i + a + 1);
    var v := s[i..e];
    assert ShapeSplit(v, a, a + 1 + b);
  }

  /** Every maximal match starting at `i` is the one `MatchEnd` finds. */
  lemma MatchEndExact(s: string, i: nat, e: nat)
    requires PatternAt(s, i, e) && (e == |s| || !IsDigit(s[e]))
    ensures MatchEnd(s, i) == Some(e)
  {
    var p, q := DotsAt(s, i, e);
    MatchEndAtDots(s, i, e, p, q);
  }

  /** A maximal match with its dots at offsets `p` and `q` from `i` ends at `e`. */
  lemma MatchEndAtDots(s: string, i: nat, e: nat, p: nat, q: nat)
    requires 0 < p && p + 1 < q && i + q + 1 < e <= |s|
    requires s[i + p] == '.' && s[i + q] == '.'
    requires DigitsBetween(s, i, i + p) && DigitsBetween(s, i + p + 1, i + q) && DigitsBetween(s, i + q + 1, e)
    requires e == |s| || !IsDigit(s[e])
    ensures MatchEnd(s, i) == Some(e)
  {
    DigitRunExact(s, i, p);
    DigitRunExact(s, i + p + 1, q - p - 1);
    DigitRunExact(s, i + q + 1, e - i - q - 1);
    MatchEndOfRuns(s, i, p, q - p - 1, e - i - q - 1);
  }

  /** `MatchEnd` once the three digit runs are known. */
  lemma MatchEndOfRuns(s: string, i: nat, a: nat, b: nat, c: nat)
    requires i + a + b + 2 <= |s|
    requires DigitRun(s, i) == a > 0 && s[i + a] == '.'
    requires DigitRun(s, i + a + 1) == b > 0 && s[i + a + 1 + b] == '.'
    requires DigitRun(s, i + a + b + 2) == c > 0
    ensures MatchEnd(s, i) == Some(i + a + b + 2 + c)
  {
  }

  /** Any match at all starting at `i` means `MatchEnd` finds one there. */
  lemma MatchEndComplete(s: string, i: nat, e: nat)
    requires PatternAt(s, i, e)
    ensures MatchEnd(s, i).Some?
  {
    var p, q := DotsAt(s, i, e);
    MatchEndNearDots(s, i, e, p, q);
  }

  /** A match with its dots at offsets `p` and `q` from `i` is found. */
  lemma MatchEndNearDots(s: string, i: nat, e: nat, p: nat, q: nat)
    requires 0 < p && p + 1 < q && i + q + 1 < e <= |s|
    requires s[i + p] == '.' && s[i + q] == '.'
    requires DigitsBetween(s, i, i + p) && DigitsBetween(s, i + p + 1, i + q) && DigitsBetween(s, i + q + 1, e)
    ensures MatchEnd(s, i).Some?
  {
    DigitRunExact(s, i, p);
    DigitRunExact(s, i + p + 1, q - p - 1);
    DigitRunAtLeast(s, i + q + 1, e - i - q - 1);
  }

  /** The two dots of a match `s[i..e]`, as offsets from `i`, with the digit
      runs around them. */
  lemma DotsAt(s: string, i: nat, e: nat) returns (p: nat, q: nat)
    requires PatternAt(s, i, e)
    ensures 0 < p && p + 1 < q && i + q + 1 < e
    ensures s[i + p] == '.' && s[i + q] == '.'
    ensures DigitsBetween(s, i, i + p) && DigitsBetween(s, i + p + 1, i + q) && DigitsBetween(s, i + q + 1, e)
  {
    var v := s[i..e];
    p, q :| ShapeSplit(v, p, q);
    forall k | i <= k < e
      ensures s[k] == v[k - i]
    {
    }
  }

  /** Leftmost index at or after `from` where the expression matches. */
  function LeftmostMatch(s: string, from: nat): (r: Option<(nat, nat)>)
    requires from <= |s|
    ensures r.Some? ==> from <= r.value.0 < |s| && MatchEnd(s, r.value.0) == Some(r.value.1)
    ensures r.Some? ==> forall j :: from <= j < r.value.0 ==> MatchEnd(s, j).None?
    ensures r.None? ==> forall j :: from <= j <= |s| ==> MatchEnd(s, j).None?
    decreases |s| - from
  {
    if from == |s| then None
    else match MatchEnd(s, from)
      case Some(e) => Some((from, e))
      case None => LeftmostMatch(s, from + 1)
  }

  /** `versionRegex.FindString(tag)`: the leftmost match of `\d+\.\d+\.\d+`,
      or the empty string when there is none. */
  function FindVersion(s: string): (v: string)
  {
    match LeftmostMatch(s, 0)
    case None => ""
    case Some((i, e)) => s[i..e]
  }

  /** `FindVersion` returns exactly the leftmost-first match of the
      expression, and the empty string exactly when nothing matches. */
  lemma FindVersionIsLeftmostMatch(s: string)
    ensures FindVersion(s) == "" <==> forall i, e :: !PatternAt(s, i, e)
    ensures FindVersion(s) != "" ==> exists i :: LeftmostVersionAt(s, i, FindVersion(s))
  {
    match LeftmostMatch(s, 0)
    case None =>
      forall i, e | PatternAt(s, i, e)
        ensures false
      {
        MatchEndComplete(s, i, e);
      }
    case Some((i, e)) =>
      MatchEndSound(s, i);
      forall j, e' | 0 <= j < i && PatternAt(s, j, e')
        ensures false
      {
        MatchEndComplete(s, j, e');
      }
      assert LeftmostVersionAt(s, i, s[i..e]);
  }

  /** The leftmost-first match is unique: the description above pins it down. */
  lemma LeftmostVersionUnique(s: string, i: int, v: string, i': int, v': string)
    requires LeftmostVersionAt(s, i, v) && LeftmostVersionAt(s, i', v')
    ensures i == i' && v == v'
  {
    assert PatternAt(s, i, i + |v|);
    assert PatternAt(s, i', i' + |v'|);
    MatchEndExact(s, i, i + |v|);
    MatchEndExact(s, i', i' + |v'|);
  }

  lemma VersionShapeChars(v: string)
    requires IsVersionShape(v)
    ensures forall k :: 0 <= k < |v| ==> IsDigit(v[k]) || v[k] == '.'
    ensures |v| > 0 && IsDigit(v[0])
  {
    var p, q :| ShapeSplit(v, p, q);
  }

  /** Decoding recovers the version: a version preceded by text without
      digits and followed by text not starting with a digit is what
      `FindVersion` returns. */
  lemma FindVersionOfTag(pre: string, v: string, post: string)
    requires forall k :: 0 <= k < |pre| ==> !IsDigit(pre[k])
    requires IsVersionShape(v)
    requires post == "" || !IsDigit(post[0])
    ensures FindVersion(pre + v + post) == v
  {
    var s := pre + v + post;
    assert s[|pre|..|pre| + |v|] == v;
    forall j, e | 0 <= j < |pre| && PatternAt(s, j, e)
      ensures false
    {
      VersionShapeChars(s[j..e]);
    }
    assert LeftmostVersionAt(s, |pre|, v);
    FindVersionIsLeftmostMatch(s);
    assert PatternAt(s, |pre|, |pre| + |v|);
    var i :| LeftmostVersionAt(s, i, FindVersion(s));
    LeftmostVersionUnique(s, i, FindVersion(s), |pre|, v);
  }

  // ---------------------------------------------------------------------
  // The channel: what -(.*) captures
  // ---------------------------------------------------------------------

  /** Index of the first occurrence of `c` in `s`. */
  function IndexOf(s: string, c: char): (r: nat)
    requires c in s
    ensures r < |s| && s[r] == c && c !in s[..r]
  {
    if s[0] == c then 0
    else
      var k := IndexOf(s[1..], c);
      assert s[..k + 1] == [s[0]] + s[1..][..k];
      1 + k
  }

  /** The longest prefix of `s` without a newline: what `.*` matches, since
      `.` does not match a newline. */
  function Line(s: string): (r: string)
    ensures r <= s && '\n' !in r
    ensures |r| == |s| || s[|r|] == '\n'
  {
    if s == "" || s[0] == '\n' then ""
    else [s[0]] + Line(s[1..])
  }

  /** `ch` is what `-(.*)` matched at the first '-' of `tag`, without the '-'. */
  ghost predicate ChannelAt(tag: string, k: int, ch: string) {
    && 0 <= k < |tag| && tag[k] == '-' && '-' !in tag[..k]
    && ch <= tag[k + 1..]
    && '\n' !in ch
    && (k + 1 + |ch| == |tag| || tag[k + 1 + |ch|] == '\n')
  }

  /** `channelRegex.FindString(tag)[1:]`. With no '-' in the tag the match is
      empty and slicing it from 1 is out of range, which aborts. */
  function ChannelOf(tag: string): (r: Result<string>)
    ensures r.Err? <==> '-' !in tag
    ensures r.Err? ==> r.failure == NoChannel
    ensures r.Ok? ==> exists k :: ChannelAt(tag, k, r.value)
  {
    if '-' !in tag then Err(NoChannel)
    else
      var k := IndexOf(tag, '-');
      var ch := Line(tag[k + 1..]);
      assert ChannelAt(tag, k, ch);
      Ok(ch)
  }

  /** Decoding recovers the channel: the text after the first '-' comes back
      whole when it holds no newline. */
  lemma ChannelOfTag(pre: string, ch: string)
    requires '-' !in pre && '\n' !in ch
    ensures ChannelOf(pre + "-" + ch) == Ok(ch)
  {
    var tag := pre + "-" + ch;
    IndexOfFirst(pre, '-', ch);
    assert tag[|pre| + 1..] == ch;
    LineWithoutNewline(ch);
  }

  lemma {:induction false} IndexOfFirst(pre: string, c: char, rest: string)
    requires c !in pre
    ensures IndexOf(pre + [c] + rest, c) == |pre|
    decreases |pre|
  {
    if |pre| > 0 {
      assert (pre + [c] + rest)[1..] == pre[1..] + [c] + rest;
      IndexOfFirst(pre[1..], c, rest);
    }
  }

  lemma {:induction false} LineWithoutNewline(s: string)
    requires '\n' !in s
    ensures Line(s) == s
    decreases |s|
  {
    if s != "" {
      LineWithoutNewline(s[1..]);
      assert s == [s[0]] + s[1..];
    }
  }

  // ---------------------------------------------------------------------
  // Decoded release and artifact naming
  // ---------------------------------------------------------------------

  /** A tag together with what is decoded from it. */
  datatype Release = Release(tag: string, version: string, channel: string)

  /** The two regular-expression decodings of `downloadAndExtractRelease`. */
  function DecodeTag(tag: string): (r: Result<Release>)
    ensures r.Err? <==> '-' !in tag
    ensures r.Ok? ==> r.value.tag == tag && r.value.version == FindVersion(tag)
    ensures r.Ok? ==> exists k :: ChannelAt(tag, k, r.value.channel)
  {
    var version := FindVersion(tag);
    match ChannelOf(tag)
    case Err(f) => Err(f)
    case Ok(channel) => Ok(Release(tag, version, channel))
  }

  /** A tag of the usual form `<prefix><a.b.c>-<channel>` decodes to its parts. */
  lemma DecodeTagRoundTrip(pre: string, v: string, ch: string)
    requires forall k :: 0 <= k < |pre| ==> !IsDigit(pre[k])
    requires '-' !in pre
    requires IsVersionShape(v)
    requires '\n' !in ch
    ensures DecodeTag(pre + v + "-" + ch) == Ok(Release(pre + v + "-" + ch, v, ch))
  {
    var tag := pre + v + "-" + ch;
    assert tag == pre + v + ("-" + ch);
    FindVersionOfTag(pre, v, "-" + ch);
    VersionShapeChars(v);
    assert '-' !in pre + v;
    ChannelOfTag(pre + v, ch);
  }

  /** A typical stable tag, `v3.16.2-stable`, decodes to version 3.16.2 on channel stable. */
  lemma DecodeStableTag()
    ensures DecodeTag("v3.16.2-stable") == Ok(Release("v3.16.2-stable", "3.16.2", "stable"))
  {
    var v := "3.16.2";
    assert ShapeSplit(v, 1, 4);
    assert "v" + v + "-" + "stable" == "v3.16.2-stable";
    DecodeTagRoundTrip("v", v, "stable");
  }

  const ReleaseBucket := "https://algorand-releases.s3.amazonaws.com/channel/"

  /** `node_<channel>_<os>-<arch>_<version>.tar.gz` */
  function TarballName(channel: string, os: string, arch: string, version: string): string {
    "node_" + channel + "_" + os + "-" + arch + "_" + version + ".tar.gz"
  }

  /** The URL the tarball is downloaded from: under the channel's directory. */
  function ReleaseUrl(channel: string, name: string): string {
    ReleaseBucket + channel + "/" + name
  }

  /** The URL's last path segment is the tarball name (the name later opened
      from the downloads directory), provided no part of the name holds a '/'. */
  lemma ReleaseUrlNamesTarball(channel: string, os: string, arch: string, version: string)
    requires '/' !in channel && '/' !in os && '/' !in arch && '/' !in version
    ensures var name := TarballName(channel, os, arch, version);
      LastField(ReleaseUrl(channel, name), '/') == name
  {
    var name := TarballName(channel, os, arch, version);
    assert '/' !in name;
    assert ReleaseUrl(channel, name) == (ReleaseBucket + channel) + ['/'] + name;
    LastFieldAfterSeparator(ReleaseBucket + channel, name, '/');
  }
}

=== FILE: syncmonitor.dfy ===
/** Waiting for the node to start syncing (algorun.go:290-317).

    The round reported by the first status call is the starting round. On
    every tick the status is polled again; the wait succeeds at the first
    poll whose round is strictly greater than the starting round, fails at
    the first poll that returns an error, and fails with a timeout when the
    timer fires first.

    The wall clock is abstracted: `polls` lists, in order, the results of the
    status calls made on the ticks that fire before the timer does, so the
    tick budget is `|polls|`.
 */
module SyncMonitor {

  /** The result of one status call: the node's last round, or an error. */
  datatype Poll = Round(round: nat) | PollError

  datatype Outcome =
    | Synced(at: nat)      // poll `at` reported a round past the start
    | PollFailed(at: nat)  // poll `at` returned an error
    | TimedOut             // the timer fired with no progress seen

  /** None of the first `n` polls ends the wait: each reports a round no
      greater than the starting round. */
  predicate Quiet(start: nat, polls: seq<Poll>, n: nat)
    requires n <= |polls|
  {
    forall j :: 0 <= j < n ==> polls[j].Round? && polls[j].round <= start
  }

  function WaitFrom(start: nat, polls: seq<Poll>, i: nat): (r: Outcome)
    requires i <= |polls| && Quiet(start, polls, i)
    ensures r.Synced? ==> i <= r.at < |polls| && polls[r.at].Round? && polls[r.at].round > start
    ensures r.PollFailed? ==> i <= r.at < |polls| && polls[r.at].PollError?
    ensures r.Synced? || r.PollFailed? ==> Quiet(start, polls, r.at)
    ensures r.TimedOut? ==> Quiet(start, polls, |polls|)
    decreases |polls| - i
  {
    if i == |polls| then TimedOut
    else match polls[i]
      case PollError => PollFailed(i)
      case Round(n) => if n > start then Synced(i) else WaitFrom(start, polls, i + 1)
  }

  /** The polling loop. It ends at the first poll that reports a round
      strictly greater than `start` or that fails, and times out when every
      poll before the timer reports a round no greater than `start`. */
  function Wait(start: nat, polls: seq<Poll>): (r: Outcome)
    ensures r.Synced? ==> r.at < |polls| && polls[r.at].Round? && polls[r.at].round > start
    ensures r.PollFailed? ==> r.at < |polls| && polls[r.at].PollError?
    ensures r.Synced? || r.PollFailed? ==> Quiet(start, polls, r.at)
    ensures r.TimedOut? <==> Quiet(start, polls, |polls|)
  {
    WaitFrom(start, polls, 0)
  }

  /** How many status polls the loop makes before it ends. */
  function PollsMade(r: Outcome, budget: nat): nat {
    match r
    case Synced(at) => at + 1
    case PollFailed(at) => at + 1
    case TimedOut => budget
  }

  /** A decided wait does not depend on the timer: had the timer fired
      later, giving more polls, the outcome would be the same. */
  lemma WaitDecidedIsStable(start: nat, polls: seq<Poll>, more: seq<Poll>)
    requires !Wait(start, polls).TimedOut?
    ensures Wait(start, polls + more) == Wait(start, polls)
  {
    WaitFromPrefix(start, polls, more, 0);
  }

  lemma {:induction false} WaitFromPrefix(start: nat, polls: seq<Poll>, more: seq<Poll>, i: nat)
    requires i <= |polls| && Quiet(start, polls, i) && !WaitFrom(start, polls, i).TimedOut?
    ensures Quiet(start, polls + more, i)
    ensures WaitFrom(start, polls + more, i) == WaitFrom(start, polls, i)
    decreases |polls| - i
  {
    assert forall j :: 0 <= j < |polls| ==> (polls + more)[j] == polls[j];
    if polls[i].Round? && polls[i].round <= start {
      WaitFromPrefix(start, polls, more, i + 1);
    }
  }

  /** Rounds equal to or below the start never end the wait: inserting such
      polls only delays a success or failure, it never changes its kind. */
  lemma StalePollsDelay(start: nat, stale: seq<Poll>, polls: seq<Poll>)
    requires Quiet(start, stale, |stale|)
    ensures Wait(start, stale + polls) == Shift(Wait(start, polls), |stale|)
  {
    ShiftFrom(start, stale, polls, 0);
  }

  function Shift(r: Outcome, n: nat): Outcome {
    match r
    case Synced(at) => Synced(at + n)
    case PollFailed(at) => PollFailed(at + n)
    case TimedOut => TimedOut
  }

  lemma {:induction false} ShiftFrom(start: nat, stale: seq<Poll>, polls: seq<Poll>, i: nat)
    requires Quiet(start, stale, |stale|)
    requires i <= |polls| && Quiet(start, polls, i)
    ensures Quiet(start, stale + polls, |stale| + i)
    ensures WaitFrom(start, stale + polls, |stale| + i) == Shift(WaitFrom(start, polls, i), |stale|)
    decreases |polls| - i
  {
    var all := stale + polls;
    assert forall j :: 0 <= j < |polls| ==> all[|stale| + j] == polls[j];
    assert forall j :: 0 <= j < |stale| ==> all[j] == stale[j];
    if i == 0 {
      StaleFrom(start, stale, polls, 0);
    }
    if i < |polls| && polls[i].Round? && polls[i].round <= start {
      ShiftFrom(start, stale, polls, i + 1);
    }
  }

  lemma {:induction false} StaleFrom(start: nat, stale: seq<Poll>, polls: seq<Poll>, i: nat)
    requires Quiet(start, stale, |stale|) && i <= |stale|
    ensures Quiet(start, stale + polls, i)
    ensures WaitFrom(start, stale + polls, i) == WaitFrom(start, stale + polls, |stale|)
    decreases |stale| - i
  {
    var all := stale + polls;
    assert forall j :: 0 <= j < |stale| ==> all[j] == stale[j];
    if i < |stale| {
      StaleFrom(start, stale, polls, i + 1);
    }
  }

  /** A node that reports round N twice and then N+1 is seen syncing at the
      third poll. */
  lemma AdvancesOnThirdPoll(n: nat, later: seq<Poll>)
    ensures Wait(n, [Round(n), Round(n), Round(n + 1)] + later) == Synced(2)
  {
    var polls := [Round(n), Round(n), Round(n + 1)] + later;
    assert polls[0] == Round(n) && polls[1] == Round(n) && polls[2] == Round(n + 1);
  }

  /** A node whose round never advances ends in a timeout. */
  lemma NeverAdvancingTimesOut(n: nat, k: nat)
    ensures Wait(n, seq(k, _ => Round(n))) == TimedOut
  {
  }
}

=== FILE: text.dfy ===
/** The string operations the orchestrator takes from Go's `strings` package:
    substring containment, splitting on a one-character separator, and
    trimming white space. Strings are sequences of Unicode scalar values.
 */
module Text {

  predicate IsDigit(c: char) {
    '0' <= c <= '9'
  }

  /** White space as Go's `unicode.IsSpace` defines it: the Latin-1 spaces
      '\t', '\n', '\v', '\f', '\r', ' ', U+0085 and U+00A0, and the
      characters of Unicode's White_Space property above Latin-1. */
  const Whitespace: set<char> := {
    '\t', '\n', '\U{000B}', '\U{000C}', '\r', ' ', '\U{0085}', '\U{00A0}', '\U{1680}',
    '\U{2000}', '\U{2001}', '\U{2002}', '\U{2003}', '\U{2004}', '\U{2005}',
    '\U{2006}', '\U{2007}', '\U{2008}', '\U{2009}', '\U{200A}',
    '\U{2028}', '\U{2029}', '\U{202F}', '\U{205F}', '\U{3000}'
  }

  predicate IsSpace(c: char) {
    c in Whitespace
  }

  predicate AllSpace(s: string) {
    SpaceBetween(s, 0, |s|)
  }

  predicate SpaceBetween(s: string, lo: int, hi: int)
    requires 0 <= lo <= hi <= |s|
  {
    forall k :: lo <= k < hi ==> IsSpace(s[k])
  }

  /** `p` occurs somewhere inside `s` (the empty string occurs everywhere). */
  predicate Contains(s: string, p: string) {
    exists i :: 0 <= i <= |s| - |p| && OccursAt(s, p, i)
  }

  predicate OccursAt(s: string, p: string, i: int) {
    0 <= i <= |s| - |p| && s[i..i + |p|] == p
  }

  /** The fields joined back together, one separator between neighbours. */
  function Join(fields: seq<string>, sep: char): string
    decreases |fields|
  {
    if |fields| == 0 then ""
    else if |fields| == 1 then fields[0]
    else fields[0] + [sep] + Join(fields[1..], sep)
  }

  /** Go's `strings.Split(s, string(sep))`: the maximal separator-free pieces
      of `s`, in order. There is always at least one field, and joining the
      fields with the separator gives `s` back. */
  function Split(s: string, sep: char): (fields: seq<string>)
    ensures |fields| >= 1
    ensures forall i :: 0 <= i < |fields| ==> sep !in fields[i]
    ensures Join(fields, sep) == s
    decreases |s|
  {
    if |s| == 0 then [""]
    else if s[0] == sep then
      var rest := Split(s[1..], sep);
      assert s == [sep] + s[1..];
      [""] + rest
    else
      var rest := Split(s[1..], sep);
      var fields := [[s[0]] + rest[0]] + rest[1..];
      assert fields[1..] == rest[1..];
      assert s == [s[0]] + s[1..];
      fields
  }

  /** The fields of a string are determined by it: splitting the join of
      separator-free fields gives the same fields back. */
  lemma {:induction false} SplitJoin(fields: seq<string>, sep: char)
    requires |fields| >= 1
    requires forall i :: 0 <= i < |fields| ==> sep !in fields[i]
    ensures Split(Join(fields, sep), sep) == fields
    decreases |fields|
  {
    if |fields| == 1 {
      SplitWithoutSeparator(fields[0], sep);
    } else {
      SplitJoin(fields[1..], sep);
      SplitAtSeparator(fields[0], Join(fields[1..], sep), sep);
      SplitWithoutSeparator(fields[0], sep);
    }
  }

  lemma {:induction false} SplitWithoutSeparator(s: string, sep: char)
    requires sep !in s
    ensures Split(s, sep) == [s]
    decreases |s|
  {
    if |s| > 0 {
      SplitWithoutSeparator(s[1..], sep);
      assert s == [s[0]] + s[1..];
    }
  }

  /** Splitting distributes over a separator: the fields of `a + [sep] + b`
      are the fields of `a` followed by the fields of `b`. */
  lemma {:induction false} SplitAtSeparator(a: string, b: string, sep: char)
    ensures Split(a + [sep] + b, sep) == Split(a, sep) + Split(b, sep)
    decreases |a|
  {
    var s := a + [sep] + b;
    if |a| == 0 {
      assert s[1..] == b;
    } else {
      assert s[0] == a[0];
      assert s[1..] == a[1..] + [sep] + b;
      SplitAtSeparator(a[1..], b, sep);
    }
  }

  /** A separator-free prefix ending at the first separator is the first field. */
  lemma SplitFirstField(a: string, b: string, sep: char)
    requires sep !in a
    ensures Split(a + [sep] + b, sep) == [a] + Split(b, sep)
  {
    SplitAtSeparator(a, b, sep);
    SplitWithoutSeparator(a, sep);
  }

  /** The last field of `Split(s, sep)`: what follows the last separator, or
      all of `s` when it has none. */
  function LastField(s: string, sep: char): (r: string)
    ensures sep !in r
    ensures |r| <= |s| && r == s[|s| - |r|..]
    ensures |r| == |s| || s[|s| - |r| - 1] == sep
  {
    LastFieldIsSuffix(s, sep);
    var fields := Split(s, sep);
    fields[|fields| - 1]
  }

  lemma LastFieldIsSuffix(s: string, sep: char)
    ensures var fields := Split(s, sep); var r := fields[|fields| - 1];
      |r| <= |s| && r == s[|s| - |r|..] && (|r| == |s| || s[|s| - |r| - 1] == sep)
  {
    var fields := Split(s, sep);
    if |fields| >= 2 {
      JoinLast(fields, sep);
    }
  }

  /** The last field of a join follows the last separator. */
  lemma {:induction false} JoinLast(fields: seq<string>, sep: char)
    requires |fields| >= 2
    ensures Join(fields, sep) == Join(fields[..|fields| - 1], sep) + [sep] + fields[|fields| - 1]
    decreases |fields|
  {
    if |fields| > 2 {
      JoinLast(fields[1..], sep);
      assert fields[1..][..|fields| - 2] == fields[..|fields| - 1][1..];
    }
  }

  /** Whatever precedes the last separator, the last field is what follows it. */
  lemma LastFieldAfterSeparator(a: string, b: string, sep: char)
    requires sep !in b
    ensures LastField(a + [sep] + b, sep) == b
  {
    SplitAtSeparator(a, b, sep);
    SplitWithoutSeparator(b, sep);
  }

  /** Go's `strings.TrimLeft` with `unicode.IsSpace`. */
  function TrimLeft(s: string): (r: string)
    ensures |r| <= |s| && r == s[|s| - |r|..]
    ensures SpaceBetween(s, 0, |s| - |r|)
    ensures r == "" || !IsSpace(r[0])
    decreases |s|
  {
    if |s| > 0 && IsSpace(s[0]) then TrimLeft(s[1..]) else s
  }

  /** Go's `strings.TrimRight` with `unicode.IsSpace`. */
  function TrimRight(s: string): (r: string)
    ensures |r| <= |s| && r == s[..|r|]
    ensures SpaceBetween(s, |r|, |s|)
    ensures r == "" || !IsSpace(r[|r| - 1])
    decreases |s|
  {
    if |s| > 0 && IsSpace(s[|s| - 1]) then TrimRight(s[..|s| - 1]) else s
  }

  /** `r` sits at index `i` of `s` with only white space around it. */
  ghost predicate TrimmedAt(s: string, i: int, r: string) {
    && 0 <= i <= |s| - |r|
    && s[i..i + |r|] == r
    && SpaceBetween(s, 0, i)
    && SpaceBetween(s, i + |r|, |s|)
  }

  /** Go's `strings.TrimSpace`: `s` without its leading and trailing white
      space. The result is a piece of `s` that neither starts nor ends with
      white space and is surrounded in `s` only by white space. */
  function TrimSpace(s: string): (r: string)
    ensures exists i :: TrimmedAt(s, i, r)
    ensures r == "" || (!IsSpace(r[0]) && !IsSpace(r[|r| - 1]))
  {
    TrimBothSides(s);
    TrimRight(TrimLeft(s))
  }

  lemma TrimBothSides(s: string)
    ensures TrimmedAt(s, |s| - |TrimLeft(s)|, TrimRight(TrimLeft(s)))
  {
    var l := TrimLeft(s);
    TrimmedInSuffix(s, |s| - |l|, TrimRight(l));
  }

  /** A prefix of the suffix `s[i..]`, followed there by white space only,
      sits at `i` with white space around it, given white space before `i`. */
  lemma TrimmedInSuffix(s: string, i: nat, r: string)
    requires i <= |s| && |r| <= |s| - i && r == s[i..][..|r|]
    requires SpaceBetween(s, 0, i) && SpaceBetween(s[i..], |r|, |s| - i)
    ensures TrimmedAt(s, i, r)
  {
    assert s[i..][..|r|] == s[i..i + |r|];
    SpaceInSuffix(s, i, |r|, |s| - i);
  }

  /** White space found in the suffix `s[i..]` is white space of `s`. */
  lemma SpaceInSuffix(s: string, i: nat, lo: nat, hi: nat)
    requires i <= |s| && lo <= hi <= |s| - i
    requires SpaceBetween(s[i..], lo, hi)
    ensures SpaceBetween(s, i + lo, i + hi)
  {
    forall k | i + lo <= k < i + hi
      ensures IsSpace(s[k])
    {
      assert s[k] == s[i..][k - i];
    }
  }

  /** A character missing from a string is missing from each of its slices. */
  lemma NotInSlice(s: string, lo: int, hi: int, c: char)
    requires 0 <= lo <= hi <= |s| && c !in s
    ensures c !in s[lo..hi]
  {
  }

  lemma {:induction false} TrimLeftOfPadded(w: string, x: string)
    requires AllSpace(w)
    requires x == "" || !IsSpace(x[0])
    ensures TrimLeft(w + x) == x
    decreases |w|
  {
    if |w| > 0 {
      assert (w + x)[1..] == w[1..] + x;
      TrimLeftOfPadded(w[1..], x);
    }
  }

  lemma {:induction false} TrimRightOfPadded(x: string, w: string)
    requires AllSpace(w)
    requires x == "" || !IsSpace(x[|x| - 1])
    ensures TrimRight(x + w) == x
    decreases |w|
  {
    if |w| > 0 {
      assert (x + w)[..|x + w| - 1] == x + w[..|w| - 1];
      TrimRightOfPadded(x, w[..|w| - 1]);
    }
  }

  /** Trimming undoes padding: a string that neither starts nor ends with
      white space comes back unchanged from any white-space padding. */
  lemma TrimSpaceOfPadded(w1: string, x: string, w2: string)
    requires AllSpace(w1) && AllSpace(w2)
    requires x == "" || (!IsSpace(x[0]) && !IsSpace(x[|x| - 1]))
    ensures TrimSpace(w1 + x + w2) == x
  {
    if x == "" {
      assert w1 + x + w2 == w1 + w2;
      assert AllSpace(w1 + w2);
      TrimLeftOfPadded(w1 + w2, "");
      assert w1 + w2 + "" == w1 + w2;
    } else {
      assert w1 + x + w2 == w1 + (x + w2);
      TrimLeftOfPadded(w1, x + w2);
    }
    TrimRightOfPadded(x, w2);
  }
}
